=== FILE: README.md ===
# MOPS keyword watcher — a Dafny model of its match / dedup / notify core

`scripts/fetch_mops.py` polls the day's listing of company announcements on
Taiwan's Market Observation Post System (MOPS) once per run. It keeps the rows
whose normalised subject contains one of a set of keywords. For those rows
only, it fetches the detail record. It then splits the matches into new and
already-seen ones, using a ledger of identity keys kept in a state file. It
saves the grown ledger sorted and sends a short digest of the new matches.

This project models that core in Dafny:

- `Text`: `normalize_text`, Python's whitespace set, `strip`, `k in s` and `str(int)`.
- `Keywords`: `load_keywords`, given the keyword file's lines, and `match_keywords`.
- `PyJson`: JSON documents as the script sees them, with `dict.get`, truthiness and `str()`.
- `Identity`: `build_item_key`.
- `Ledger`: loading `seen_keys` from the state file and saving it sorted.
- `Listing`: `roc_year`, the listing query for a Taipei date, and the rows of the listing response.
- `Digest`: the notification text.
- `Pipeline`: the row loop of `main`, the merge, the save, the digest, one whole poll, and two polls in a row.

The two MOPS endpoints are function parameters returning `Result`. The state
file is a value (`Missing`, `Unparseable` or a parsed document). The clock is
replaced by the calendar date and the timestamp text. Each piece keeps the
source's form:

- The source's loops, and its `sorted` call, are methods with loop invariants: `LoadKeywords`, `MatchKeywords`, `MatchRows`, `MergeKeys`, `BuildDigest`, and `SortedKeys` for `sorted(seen_keys)`.
- Each of those methods is proved against a specification in its `ensures`:
  - `LoadKeywords`, `MatchKeywords` and `MatchRows` are tied to functions (`SortByLengthDesc`, `Hits`, `FetchAll` and `NewItems`).
  - `SortedKeys` is tied to strict sortedness and the ledger's set.
  - `MergeKeys` is tied to a set union.
  - `BuildDigest` is tied to the `IsDigest` predicate.
- Pure helpers are functions.

The model follows what the code does, including these points where the code is easy to misread:

- A row passes the shape check with six or more cells, not exactly six.
- A failed detail lookup ends the whole run: the ledger is not saved and no digest is sent.
- Keys are distinct only as far as the `str()` renderings of the four fields differ. A missing field and the text `"None"` give the same key.
- A `seen_keys` string or object is accepted the way Python's `set(...)` accepts it.
- The state file is read after the listing has been fetched and its `result` looked up, but before the listing data is iterated. So with a corrupt state file, listing data that cannot be iterated fails on the state file.

## Model

| member | source | states |
|---|---|---|
| Listing.RocYear | scripts/fetch_mops.py:21-23 | the ROC year plus 1911 is the Gregorian year; 1912 is ROC year 1 |
| Listing.ListQuery | scripts/fetch_mops.py:120-126 | the query's year is the ROC year; the month is unpadded and reads back as the month; the day is all digits and reads back as the day; a day below 100 has exactly two digits, and a longer day has no leading zero |
| Listing.DayTextUnique | scripts/fetch_mops.py:123 | the zero-padded two-digit text is the only two-digit text reading back as a day below 100 |
| Listing.ListingData | scripts/fetch_mops.py:129 | the lookup fails exactly when the response is not a dict, or its `result` is present and not a dict; with no `result` the data is an empty list; otherwise it is the truthy `data`, or an empty list when `data` is absent or falsy |
| Listing.DataRows | scripts/fetch_mops.py:137 | iterating `None`, a boolean or an integer fails; a list gives its elements; a string gives its characters as one-character strings; a dict gives its keys as strings |
| Listing.ListingRowsRoundTrip | scripts/fetch_mops.py:129-137 | a response carrying a list of rows gives back exactly those rows, the empty list included |
| PyJson.Get | scripts/fetch_mops.py:107 | `d.get(name)` is absent exactly when no member has that name, and otherwise is a value stored under that name |
| PyJson.PyStrScalars | scripts/fetch_mops.py:142-146 | `str()` of a string is the string; `None`, `True` and `False` are their names; an integer is a non-empty run of digits without a leading zero (except 0 itself), after a minus sign when negative, and reads back as the integer |
| Text.NormalizeTextJoinsWords | scripts/fetch_mops.py:26-30 | the normalised text is the whitespace-separated words of the input (Python's `s.split()`) joined by single spaces |
| Text.WordsAreWords | scripts/fetch_mops.py:29 | every word is non-empty and holds no whitespace, so each whitespace run between words becomes exactly one space |
| Text.SameWordsSameNormalForm | scripts/fetch_mops.py:26-30 | texts with the same words normalise to the same text, however their whitespace differs |
| Text.NormalizeTextIsNormalized | scripts/fetch_mops.py:26-30 | normalised text has no whitespace at either end, no two whitespace characters in a row, and no whitespace other than a plain space |
| Text.NormalizeTextIdempotent | scripts/fetch_mops.py:26-30 | normalising twice equals normalising once |
| Text.NormalizeTextKeepsVisible | scripts/fetch_mops.py:26-30 | normalisation keeps every non-whitespace character, in order |
| Text.NormalizedHasNoNewline | scripts/fetch_mops.py:28-29 | normalised text holds no line break |
| Text.Occurs | scripts/fetch_mops.py:48 | `k in s` holds exactly when `k` occurs at some position of `s` |
| Keywords.KeywordLines | scripts/fetch_mops.py:36-39 | every kept keyword is non-empty, does not start with `#`, and is already stripped |
| Keywords.KeywordLinesComplete | scripts/fetch_mops.py:36-39 | every line whose stripped text is non-empty and does not start with `#` is kept |
| Keywords.KeywordLinesInFileOrder | scripts/fetch_mops.py:36-39 | the kept keywords are the qualifying stripped lines in file order, each kept as often as it occurs in the file |
| Keywords.SortByLengthDesc | scripts/fetch_mops.py:41 | the sorted list has as many keywords as the input, longest first |
| Keywords.SortByLengthDescMultiset | scripts/fetch_mops.py:41 | sorting by length keeps exactly the same keywords, duplicates included |
| Keywords.SortByLengthDescStable | scripts/fetch_mops.py:41 | the sort is stable: keywords of equal length keep their file order |
| Keywords.LoadKeywords | scripts/fetch_mops.py:33-42 | the result is the qualifying lines, stripped, as a permutation, longest first, with equal lengths in file order |
| Keywords.HitsExact | scripts/fetch_mops.py:45-50 | a keyword is a hit exactly when it is one of the keywords and occurs in the subject, and it is a hit as many times as the keyword list holds it |
| Keywords.HitsInKeywordOrder | scripts/fetch_mops.py:45-50 | the hits are a subsequence of the keywords, in keyword order |
| Keywords.MatchKeywords | scripts/fetch_mops.py:45-50 | the loop returns exactly the keywords occurring in the subject, in keyword order |
| Keywords.SameWordsSameHits | scripts/fetch_mops.py:147-154 | subjects that differ only in whitespace give the same hits |
| Identity.KeyJoinsFieldTexts | scripts/fetch_mops.py:105-107 | the key is the renderings of enterDate, marketKind, companyId and serialNumber, in that order, joined by a vertical bar |
| Identity.KeySplitsIntoFields | scripts/fetch_mops.py:107 | when no rendering holds a vertical bar, splitting the key at vertical bars gives back the four renderings |
| Identity.KeyInjective | scripts/fetch_mops.py:107 | for renderings without a vertical bar, equal keys mean equal renderings of all four fields |
| Identity.KeySeparatesOneField | scripts/fetch_mops.py:107 | renderings that differ in exactly one field give different keys, whatever characters they hold |
| Identity.KeyReadsOnlyKeyFields | scripts/fetch_mops.py:105-107 | parameters that agree on the four key fields give the same key, whatever else they hold |
| Identity.AbsentFieldLooksLikeNoneText | scripts/fetch_mops.py:107 | a missing enterDate and the string `"None"` differ as parameters but give the same key |
| Ledger.LoadLedgerCases | scripts/fetch_mops.py:131-132 | loading fails, with a corrupt-state error, exactly on an unparseable file, a document that is not a dict, or a `seen_keys` that is not a list of strings, a string or a dict; a missing file or an absent `seen_keys` is an empty ledger; a list of strings gives exactly its strings; a string gives exactly its one-character strings; a dict gives exactly its keys |
| Ledger.StrLessIrreflexive | scripts/fetch_mops.py:224 | no key sorts before itself under Python's string order |
| Ledger.StrLessAsymmetric | scripts/fetch_mops.py:224 | two keys never sort before each other |
| Ledger.StrLessTransitive | scripts/fetch_mops.py:224 | the string order is transitive |
| Ledger.StrLessTotal | scripts/fetch_mops.py:224 | of two different keys, one sorts before the other |
| Ledger.SortedKeys | scripts/fetch_mops.py:224 | `sorted(seen_keys)` is strictly ascending, holds exactly the ledger's keys, and has one entry per key |
| Ledger.SortedKeysUnique | scripts/fetch_mops.py:224 | two strictly sorted lists with the same keys are equal, so the saved list depends only on the ledger |
| Ledger.LoadAfterSave | scripts/fetch_mops.py:66-70 | loading the document saved for a sorted key list gives back the same ledger |
| Digest.BuildDigest | scripts/fetch_mops.py:227-233 | the digest has a header counting all new items, one line for each of the first ten in order, and, when there are more than ten, a line counting the rest; it has 1 + min(n,10) + (1 if n > 10) lines |
| Digest.DigestMessageLines | scripts/fetch_mops.py:235 | joining the digest lines with line breaks and splitting again gives the same lines, when no printed field holds a line break |
| Pipeline.DetailParams | scripts/fetch_mops.py:149-152 | a row is skipped only when its sixth cell is a dict; a sixth cell that is not a dict gives empty parameters |
| Pipeline.DetailParamsCases | scripts/fetch_mops.py:149-152 | a row is skipped exactly when its sixth cell is a dict whose `parameters` is truthy but not a dict; dict `parameters` are taken as they are; a sixth cell that is not a dict, or absent or falsy `parameters`, give empty parameters |
| Pipeline.ScreenSound | scripts/fetch_mops.py:139-158 | a row yields a candidate only when it has at least six cells, its parameters are a dict and it has a hit; the hits are `Hits` of the normalised subject: exactly the keywords occurring in it, in keyword order, a repeated keyword as often as it is listed; the key is built from the parameters; the date, time, company id, company name and subject are the normalised `str()` of cells 0 to 4, in that order, and are normalised text |
| Pipeline.ScreenComplete | scripts/fetch_mops.py:139-158 | a row yields a candidate exactly when it has at least six cells, its parameters are a dict, and its normalised subject has a hit |
| Pipeline.CandidatesAround | scripts/fetch_mops.py:137-158 | the listing's candidates are those of the rows before a row, then that row's own, then those of the rows after it |
| Pipeline.ScreenedRowIsCandidate | scripts/fetch_mops.py:137-158 | every row that yields a candidate contributes it to the listing's candidates, so its detail is fetched |
| Pipeline.SingleRowListing | scripts/fetch_mops.py:137-158 | one well-shaped row whose whitespace-free subject contains the only keyword gives one candidate, with that keyword as its only hit, that subject and the row's parameters |
| Pipeline.TreasuryStockExample | scripts/fetch_mops.py:137-158 | a listing of one row with subject 公司進行庫藏股轉讓 and the keyword 庫藏股 gives one candidate whose hits are exactly 庫藏股 |
| Pipeline.SkippedRows | scripts/fetch_mops.py:139-156 | a row that fails the shape check, or whose normalised subject has no hit, yields no candidate |
| Pipeline.SkippedRowContributesNothing | scripts/fetch_mops.py:137-178 | removing a skipped row leaves the candidates unchanged, so that row is never fetched and never matched |
| Pipeline.NoKeywordsNoCandidates | scripts/fetch_mops.py:154-156 | with no keywords, no row is ever matched |
| Pipeline.StringRowsNoCandidates | scripts/fetch_mops.py:137-140 | rows that are strings (what a string or dict `data` yields) are all skipped |
| Pipeline.FetchAllItems | scripts/fetch_mops.py:161-175 | after a run without failures there is one matched item per candidate, in listing order, each holding the detail fetched with its own parameters |
| Pipeline.FetchAllErrPersists | scripts/fetch_mops.py:161 | once a detail lookup has failed, later rows do not change the outcome |
| Pipeline.NewItemsExact | scripts/fetch_mops.py:177-178 | the new items are exactly the matched items whose key was not in the snapshot, kept in matched order, each as many times as it was matched |
| Pipeline.KnownKeysNothingNew | scripts/fetch_mops.py:177-178 | against a snapshot that holds every matched key, nothing is new |
| Pipeline.ScreenRow | scripts/fetch_mops.py:139-158 | the loop body's date is set exactly when the row passes the shape check, and its candidate is what the row yields |
| Pipeline.MatchRows | scripts/fetch_mops.py:137-178 | the loop matches the candidates' items in order, or stops with the first failed lookup; new items are the unseen ones; the loop's `speech_date` is that of the last row that passed the shape check; details are fetched only for candidates, in order |
| Pipeline.MergeKeys | scripts/fetch_mops.py:180-182 | the ledger after the merge is the snapshot together with every matched key |
| Pipeline.Run | scripts/fetch_mops.py:137-235 | a run fails exactly when a detail lookup fails; otherwise it gives the matched and new items, ledger = snapshot ∪ matched keys, a sorted save, and a digest exactly when something is new; the digest is headed with the date of the last shaped row and splits back into its lines |
| Pipeline.CandidatesGiveDate | scripts/fetch_mops.py:142 | when some row matched, some row passed the shape check, so the header date is defined |
| Pipeline.LastShapedDateNormalized | scripts/fetch_mops.py:142 | the header date, when defined, is normalised text |
| Pipeline.HeaderDateFromLastShapedRow | scripts/fetch_mops.py:229 | a final row that passes the shape check but matches nothing adds no match, yet its date becomes the header date |
| Pipeline.MessageSplitsIntoLines | scripts/fetch_mops.py:229-235 | every digest line of a run is a single line of the message |
| Pipeline.MatchedKeys | scripts/fetch_mops.py:158-182 | the keys merged into the ledger are the candidates' keys, whatever the detail lookups returned |
| Pipeline.RerunFindsNothingNew | scripts/fetch_mops.py:177-182 | a second run over the same listing, from the ledger the first run left, matches as many items with the same keys, finds nothing new, sends no digest and leaves the ledger and saved list unchanged |
| Pipeline.StateReadBeforeRows | scripts/fetch_mops.py:129-137 | once the listing's `result` has been looked up, a corrupt state file ends the poll with its error, whatever the listing data is |
| Pipeline.NonIterableDataWithCorruptState | scripts/fetch_mops.py:129-137 | listing data `1` with an unparseable state file fails as corrupt state, not as a malformed listing |
| Pipeline.PrepareSwapState | scripts/fetch_mops.py:118-137 | with the listing read, a state file loading to a ledger gives the same keywords and rows, with that ledger as the snapshot |
| Pipeline.PollOnce | scripts/fetch_mops.py:118-235 | the poll fails, in this order, on a failed listing fetch, a response or `result` that is not a dict, a corrupt state file, then listing data that cannot be iterated; otherwise it behaves as `Run` on the sorted keywords, the listing rows and the loaded ledger |
| Pipeline.PollTwice | scripts/fetch_mops.py:118-235 | with the same deterministic listing and detail endpoints, a second poll that reads the state file the first saved succeeds, matches as many items with the same keys, finds nothing new, sends no digest, and keeps the ledger and saved list; if the first poll failed, the second fails the same way |
| Pipeline.FetchAllAt | scripts/fetch_mops.py:161-173 | whether the detail lookups succeed does not depend on the fetch timestamp |

## Left out

- The HTTP transport (`http_post_json`, headers, timeouts, status checks): each endpoint is a function parameter that returns a document or a `TransportError`.
- The JSON and CSV output files (fetch_mops.py:185-221): they write `matched_items` out and feed nothing back into the core.
- `save_json`'s file writing and directory creation: the saved state is modelled as the document written.
- Reading the keyword file: `LoadKeywords` takes its lines. Python's line iteration keeps each line's `\n`, which `strip` removes.
- The notification transports (`telegram_notify`, `line_push`, lines 237-251), the environment variables and the swallowed exceptions: the model stops at the digest message.
- The final `print` and argument parsing: these are user interface.
- The clock and the Asia/Taipei time zone: the calendar date and the `fetched_at_tw` text are parameters.
- Floating-point JSON numbers: the model's JSON has `None`, booleans, integers, strings, lists and dicts.
- PyJson.PyStr: `repr` of a string inside a container always uses plain single quotes, without Python's choice of quote character or its escaping.
- Ledger.LoadLedger: a `seen_keys` list holding non-strings counts as corrupt state. In Python a list of lists or dicts raises at `set(...)`. A list of integers loads; `sorted` at fetch_mops.py:224 then raises only when a string key joins the integers, and with no match the integers are saved back unchanged. The model has string keys only.
- Ledger.LoadLedger: a state document that is not a dict counts as corrupt state, where Python raises at `.get`.
- Duplicate keys inside one JSON object: a dict is kept as its members in insertion order, and `get` takes the first match. Python's `json` keeps the last value of a repeated key, so the two differ on such input.

=== FILE: digest.dfy ===
/** The notification digest `main` builds for newly matched items. */
module Digest {
  import opened Seqs
  import opened Text
  import opened Records

  /** At most this many items are listed one per line. */
  const PreviewLimit: nat := 10

  function Min(a: nat, b: nat): nat
  {
    if a < b then a else b
  }

  function Header(count: nat, date: string): string
  {
    "📣 MOPS 新公告命中 " + IntToDecimal(count) + " 筆（" + date + "）"
  }

  function ItemLine(it: Item): string
  {
    "- " + it.companyId + " " + it.companyName + " " + it.speechTime + " " + it.subject
      + "（" + Join(it.matchedKeywords, ",") + "）"
  }

  function OverflowLine(count: nat): string
    requires count > PreviewLimit
  {
    "... 另有 " + IntToDecimal(count - PreviewLimit) + " 筆"
  }

  /** `lines` is the digest of `items` under the header date `date`: a
      header counting every item, one line for each of the first ten items in
      order, and a closing line counting the rest when there are more. */
  predicate IsDigest(items: seq<Item>, date: string, lines: seq<string>)
  {
    var n := |items|;
    var shown := Min(n, PreviewLimit);
    && |lines| == 1 + shown + (if n > PreviewLimit then 1 else 0)
    && lines[0] == Header(n, date)
    && (forall i | 0 <= i < shown :: lines[1 + i] == ItemLine(items[i]))
    && (n > PreviewLimit ==> lines[|lines| - 1] == OverflowLine(n))
  }

  /** Builds the digest lines (the source only does so when there is at
      least one new item). */
  method BuildDigest(items: seq<Item>, date: string) returns (lines: seq<string>)
    requires |items| >= 1
    ensures IsDigest(items, date, lines)
    ensures |lines| == 1 + Min(|items|, PreviewLimit) + (if |items| > PreviewLimit then 1 else 0)
  {
    lines := [Header(|items|, date)];
    var shown := Min(|items|, PreviewLimit);
    for i := 0 to shown
      invariant |lines| == 1 + i
      invariant lines[0] == Header(|items|, date)
      invariant forall j | 0 <= j < i :: lines[1 + j] == ItemLine(items[j])
    {
      lines := lines + [ItemLine(items[i])];
    }
    if |items| > PreviewLimit {
      lines := lines + [OverflowLine(|items|)];
    }
  }

  /** The parts of an item the digest prints hold no line break. */
  predicate SingleLine(it: Item)
  {
    && '\n' !in it.companyId && '\n' !in it.companyName && '\n' !in it.speechTime
    && '\n' !in it.subject
    && forall k | k in it.matchedKeywords :: '\n' !in k
  }

  lemma DecimalSingleLine(n: int)
    ensures '\n' !in IntToDecimal(n)
  {
    var d := if n < 0 then NatToDecimal(-n) else NatToDecimal(n);
    assert forall i | 0 <= i < |d| :: d[i] != '\n';
  }

  /** Joined with line breaks, the digest splits back into its lines: every
      listed item occupies exactly one line of the message. */
  lemma {:induction false} DigestMessageLines(items: seq<Item>, date: string, lines: seq<string>)
    requires IsDigest(items, date, lines)
    requires '\n' !in date
    requires forall i | 0 <= i < |items| :: SingleLine(items[i])
    ensures Split(Join(lines, "\n"), '\n') == lines
  {
    var n := |items|;
    DecimalSingleLine(n);
    forall i | 0 <= i < |lines|
      ensures '\n' !in lines[i]
    {
      if i == 0 {
        assert lines[0] == "📣 MOPS 新公告命中 " + IntToDecimal(n) + " 筆（" + date + "）";
      } else if i <= Min(n, PreviewLimit) {
        var it := items[i - 1];
        JoinAvoids(it.matchedKeywords, ",", '\n');
        assert lines[i] == "- " + it.companyId + " " + it.companyName + " " + it.speechTime + " "
          + it.subject + "（" + Join(it.matchedKeywords, ",") + "）";
      } else {
        DecimalSingleLine(n - PreviewLimit);
        assert lines[i] == "... 另有 " + IntToDecimal(n - PreviewLimit) + " 筆";
      }
    }
    SplitJoin(lines, '\n');
  }
}

=== FILE: identity.dfy ===
/** `build_item_key`: the dedup identity of an announcement, read from the
    detail-lookup parameters of its listing row. */
module Identity {
  import opened Wrappers
  import opened Seqs
  import opened PyJson

  /** The four parameters the key is made of, in key order. */
  const KeyFields: seq<string> := ["enterDate", "marketKind", "companyId", "serialNumber"]

  /** `str(params.get(name))`: a missing parameter reads as `None`. */
  function FieldText(params: Dict, name: string): string
  {
    PyStr(Get(params, name).GetOr(JNull))
  }

  /** The renderings of the four key fields, in key order. */
  function FieldTexts(params: Dict): (texts: seq<string>)
    ensures |texts| == 4
  {
    seq(4, i requires 0 <= i < 4 => FieldText(params, KeyFields[i]))
  }

  /** `build_item_key` */
  function BuildItemKey(params: Dict): string
  {
    FieldText(params, "enterDate") + "|" + FieldText(params, "marketKind") + "|"
      + FieldText(params, "companyId") + "|" + FieldText(params, "serialNumber")
  }

  /** The key is the four field renderings joined by `|`, in the order
      enterDate, marketKind, companyId, serialNumber. */
  lemma KeyJoinsFieldTexts(params: Dict)
    ensures BuildItemKey(params) == Join(FieldTexts(params), "|")
  {
    var t := FieldTexts(params);
    assert t[1..][1..][1..] == [t[3]];
    assert Join(t[1..][1..], "|") == t[2] + "|" + t[3];
    assert Join(t[1..], "|") == t[1] + "|" + (t[2] + "|" + t[3]);
  }

  /** When no field rendering holds a `|`, splitting the key at `|` gives
      back the four renderings. */
  lemma {:induction false} KeySplitsIntoFields(params: Dict)
    requires forall i | 0 <= i < 4 :: '|' !in FieldTexts(params)[i]
    ensures Split(BuildItemKey(params), '|') == FieldTexts(params)
  {
    KeyJoinsFieldTexts(params);
    SplitJoin(FieldTexts(params), '|');
  }

  /** Hence, for `|`-free renderings, equal keys mean equal renderings. */
  lemma {:induction false} KeyInjective(p: Dict, q: Dict)
    requires forall i | 0 <= i < 4 :: '|' !in FieldTexts(p)[i] && '|' !in FieldTexts(q)[i]
    requires BuildItemKey(p) == BuildItemKey(q)
    ensures FieldTexts(p) == FieldTexts(q)
  {
    KeySplitsIntoFields(p);
    KeySplitsIntoFields(q);
  }

  /** Two parameter sets whose renderings differ in exactly one key field
      get different keys, whatever characters the renderings hold. */
  lemma {:induction false} KeySeparatesOneField(p: Dict, q: Dict, i: nat)
    requires i < 4
    requires FieldTexts(p)[i] != FieldTexts(q)[i]
    requires forall j | 0 <= j < 4 && j != i :: FieldTexts(p)[j] == FieldTexts(q)[j]
    ensures BuildItemKey(p) != BuildItemKey(q)
  {
    KeyJoinsFieldTexts(p);
    KeyJoinsFieldTexts(q);
    JoinSeparatesOne(FieldTexts(p), FieldTexts(q), "|", i);
  }

  /** The key only sees the four key fields: other parameters never matter. */
  lemma KeyReadsOnlyKeyFields(p: Dict, q: Dict)
    requires forall i | 0 <= i < 4 :: Get(p, KeyFields[i]) == Get(q, KeyFields[i])
    ensures BuildItemKey(p) == BuildItemKey(q)
  {
    assert FieldTexts(p) == FieldTexts(q);
    KeyJoinsFieldTexts(p);
    KeyJoinsFieldTexts(q);
  }

  /** A missing field and the text "None" are indistinguishable in the key:
      the sentinel for absence is Python's rendering of `None`. */
  lemma AbsentFieldLooksLikeNoneText()
    ensures var p: Dict := [];
            var q: Dict := [("enterDate", JStr("None"))];
            Get(p, "enterDate") != Get(q, "enterDate") && BuildItemKey(p) == BuildItemKey(q)
  {
  }
}

=== FILE: keywords.dfy ===
/** `load_keywords` and `match_keywords` (scripts/fetch_mops.py). */
module Keywords {
  import opened Seqs
  import opened Text

  /** A stripped line is a keyword when it is non-empty and not a `#` comment. */
  predicate IsKeyword(k: string)
  {
    k != [] && k[0] != '#'
  }

  /** The stripped keyword lines, in file order: each entry is a keyword
      with no whitespace left at its ends. */
  function KeywordLines(lines: seq<string>): (ks: seq<string>)
    ensures forall k | k in ks :: IsKeyword(k) && Strip(k) == k
  {
    if lines == [] then []
    else
      var k := Strip(lines[|lines| - 1]);
      StripSlice(lines[|lines| - 1]);
      StripFixes(k);
      KeywordLines(lines[..|lines| - 1]) + (if IsKeyword(k) then [k] else [])
  }

  /** Every line that strips to a keyword is kept. */
  lemma {:induction false} KeywordLinesComplete(lines: seq<string>)
    ensures forall i | 0 <= i < |lines| && IsKeyword(Strip(lines[i])) ::
              Strip(lines[i]) in KeywordLines(lines)
  {
    if lines != [] {
      var init := lines[..|lines| - 1];
      var last := Strip(lines[|lines| - 1]);
      KeywordLinesComplete(init);
      assert KeywordLines(lines) == KeywordLines(init) + (if IsKeyword(last) then [last] else []);
      forall i | 0 <= i < |lines| && IsKeyword(Strip(lines[i]))
        ensures Strip(lines[i]) in KeywordLines(lines)
      {
        if i < |init| {
          assert lines[i] == init[i];
          assert Strip(init[i]) in KeywordLines(init);
        } else {
          assert Strip(lines[i]) == last;
        }
      }
    }
  }

  /** Every line of the keyword file, stripped. */
  function Stripped(lines: seq<string>): (r: seq<string>)
    ensures |r| == |lines|
  {
    seq(|lines|, i requires 0 <= i < |lines| => Strip(lines[i]))
  }

  /** The kept keywords are the stripped lines that are keywords, in file
      order, each kept as often as it occurs in the file. */
  lemma {:induction false} KeywordLinesInFileOrder(lines: seq<string>)
    ensures IsSubseq(KeywordLines(lines), Stripped(lines))
    ensures forall k :: multiset(KeywordLines(lines))[k] == if IsKeyword(k) then multiset(Stripped(lines))[k] else 0
  {
    if lines != [] {
      var init := lines[..|lines| - 1];
      var last := Strip(lines[|lines| - 1]);
      KeywordLinesInFileOrder(init);
      assert Stripped(lines) == Stripped(init) + [last];
      assert multiset(Stripped(lines)) == multiset(Stripped(init)) + multiset{last};
      if IsKeyword(last) {
        SubseqSnoc(KeywordLines(init), Stripped(init), last);
      } else {
        SubseqSkip(KeywordLines(init), Stripped(init), last);
        assert KeywordLines(lines) == KeywordLines(init);
      }
    }
  }

  // ---------------------------------------------------------------------------
  // kws.sort(key=len, reverse=True): stable, longest first

  predicate LongestFirst(ks: seq<string>)
  {
    forall i, j | 0 <= i < j < |ks| :: |ks[i]| >= |ks[j]|
  }

  /** The entries of length `n`, in order. */
  function OfLength(ks: seq<string>, n: nat): seq<string>
  {
    if ks == [] then []
    else (if |ks[0]| == n then [ks[0]] else []) + OfLength(ks[1..], n)
  }

  /** Places `x` after every entry at least as long as it. */
  function InsertByLength(ks: seq<string>, x: string): (r: seq<string>)
    requires LongestFirst(ks)
    ensures |r| == |ks| + 1
    ensures r[0] == if ks != [] && |ks[0]| >= |x| then ks[0] else x
    ensures LongestFirst(r)
  {
    if ks == [] then [x]
    else if |ks[0]| >= |x| then
      var rest := InsertByLength(ks[1..], x);
      var r := [ks[0]] + rest;
      assert forall j | 1 <= j < |r| :: r[j] == rest[j - 1];
      assert forall j | 1 <= j < |r| :: |r[j]| <= |rest[0]|;
      r
    else
      [x] + ks
  }

  lemma {:induction false} InsertByLengthMultiset(ks: seq<string>, x: string)
    requires LongestFirst(ks)
    ensures multiset(InsertByLength(ks, x)) == multiset(ks) + multiset{x}
    decreases |ks|
  {
    if ks != [] && |ks[0]| >= |x| {
      var rest := InsertByLength(ks[1..], x);
      InsertByLengthMultiset(ks[1..], x);
      assert InsertByLength(ks, x) == [ks[0]] + rest;
      assert multiset([ks[0]] + rest) == multiset{ks[0]} + multiset(rest);
      assert ks == [ks[0]] + ks[1..];
      assert multiset(ks) == multiset{ks[0]} + multiset(ks[1..]);
    } else {
      assert InsertByLength(ks, x) == [x] + ks;
    }
  }

  /** The stable longest-first ordering of `ks`. */
  function SortByLengthDesc(ks: seq<string>): (r: seq<string>)
    ensures |r| == |ks|
    ensures LongestFirst(r)
  {
    if ks == [] then []
    else InsertByLength(SortByLengthDesc(ks[..|ks| - 1]), ks[|ks| - 1])
  }

  /** The sort only reorders. */
  lemma {:induction false} SortByLengthDescMultiset(ks: seq<string>)
    ensures multiset(SortByLengthDesc(ks)) == multiset(ks)
    decreases |ks|
  {
    if ks != [] {
      var init, x := ks[..|ks| - 1], ks[|ks| - 1];
      var sorted := SortByLengthDesc(init);
      SortByLengthDescMultiset(init);
      assert SortByLengthDesc(ks) == InsertByLength(sorted, x);
      InsertByLengthMultiset(sorted, x);
      assert ks == init + [x];
      assert multiset(ks) == multiset(init) + multiset{x};
    }
  }

  lemma {:induction false} OfLengthAppend(a: seq<string>, b: seq<string>, n: nat)
    ensures OfLength(a + b, n) == OfLength(a, n) + OfLength(b, n)
    decreases |a|
  {
    if a == [] {
      assert a + b == b;
    } else {
      assert (a + b)[0] == a[0];
      assert (a + b)[1..] == a[1..] + b;
      OfLengthAppend(a[1..], b, n);
    }
  }

  lemma {:induction false} OfLengthNone(ks: seq<string>, n: nat)
    requires forall i | 0 <= i < |ks| :: |ks[i]| != n
    ensures OfLength(ks, n) == []
    decreases |ks|
  {
    if ks != [] {
      OfLengthNone(ks[1..], n);
    }
  }

  /** Inserting `x` adds it behind every equally long entry already there. */
  lemma {:induction false} InsertOfLength(ks: seq<string>, x: string, n: nat)
    requires LongestFirst(ks)
    ensures OfLength(InsertByLength(ks, x), n) == OfLength(ks, n) + (if |x| == n then [x] else [])
    decreases |ks|
  {
    var tail := if |x| == n then [x] else [];
    if ks == [] {
      assert InsertByLength(ks, x) == [x];
      assert [x][1..] == [];
    } else if |ks[0]| >= |x| {
      var head := if |ks[0]| == n then [ks[0]] else [];
      var rest := InsertByLength(ks[1..], x);
      InsertOfLength(ks[1..], x, n);
      assert InsertByLength(ks, x) == [ks[0]] + rest;
      assert ([ks[0]] + rest)[0] == ks[0];
      assert ([ks[0]] + rest)[1..] == rest;
      assert OfLength([ks[0]] + rest, n) == head + OfLength(rest, n);
      assert OfLength(ks, n) == head + OfLength(ks[1..], n);
      AppendAssoc(head, OfLength(ks[1..], n), tail);
    } else {
      assert InsertByLength(ks, x) == [x] + ks;
      assert ([x] + ks)[0] == x;
      assert ([x] + ks)[1..] == ks;
      assert OfLength([x] + ks, n) == tail + OfLength(ks, n);
      if |x| == n {
        forall i | 0 <= i < |ks| ensures |ks[i]| != n {
          assert i == 0 || |ks[0]| >= |ks[i]|;
        }
        OfLengthNone(ks, n);
      }
    }
  }

  /** The sort is stable: the entries of each length keep their order. */
  lemma {:induction false} SortByLengthDescStable(ks: seq<string>, n: nat)
    ensures OfLength(SortByLengthDesc(ks), n) == OfLength(ks, n)
    decreases |ks|
  {
    if ks != [] {
      var init, x := ks[..|ks| - 1], ks[|ks| - 1];
      SortByLengthDescStable(init, n);
      InsertOfLength(SortByLengthDesc(init), x, n);
      assert ks == init + [x];
      OfLengthAppend(init, [x], n);
      assert OfLength([x], n) == (if |x| == n then [x] else []) by {
        assert [x][1..] == [];
      }
    }
  }

  /** `load_keywords`, given the lines of the keyword file. */
  method LoadKeywords(lines: seq<string>) returns (keywords: seq<string>)
    ensures keywords == SortByLengthDesc(KeywordLines(lines))
    ensures forall k | k in keywords :: IsKeyword(k) && Strip(k) == k
    ensures forall i | 0 <= i < |lines| && IsKeyword(Strip(lines[i])) :: Strip(lines[i]) in keywords
    ensures multiset(keywords) == multiset(KeywordLines(lines))
    ensures LongestFirst(keywords)
    ensures forall n: nat :: OfLength(keywords, n) == OfLength(KeywordLines(lines), n)
  {
    keywords := [];
    for i := 0 to |lines|
      invariant keywords == KeywordLines(lines[..i])
    {
      var k := Strip(lines[i]);
      if k != [] && k[0] != '#' {
        keywords := keywords + [k];
      }
      assert lines[..i + 1][..i] == lines[..i];
    }
    assert lines[..|lines|] == lines;
    var kept := keywords;
    keywords := SortByLengthDesc(keywords);
    SortByLengthDescMultiset(kept);

    KeywordLinesComplete(lines);
    forall k | k in keywords
      ensures IsKeyword(k) && Strip(k) == k
    {
      assert k in multiset(kept);
    }
    forall i | 0 <= i < |lines| && IsKeyword(Strip(lines[i]))
      ensures Strip(lines[i]) in keywords
    {
      assert Strip(lines[i]) in multiset(kept);
    }
    forall n: nat
      ensures OfLength(keywords, n) == OfLength(kept, n)
    {
      SortByLengthDescStable(kept, n);
    }
  }

  // ---------------------------------------------------------------------------
  // match_keywords

  /** The keywords occurring in `subject`, in keyword order. */
  function Hits(subject: string, keywords: seq<string>): seq<string>
  {
    if keywords == [] then []
    else
      var k := keywords[|keywords| - 1];
      Hits(subject, keywords[..|keywords| - 1]) + (if Occurs(k, subject) then [k] else [])
  }

  /** The hits are exactly the keywords that occur in the subject, each as
      often as the keyword list holds it ... */
  lemma {:induction false} HitsExact(subject: string, keywords: seq<string>)
    ensures forall k :: k in Hits(subject, keywords) <==> k in keywords && IsSubstring(k, subject)
    ensures forall k :: multiset(Hits(subject, keywords))[k] == if IsSubstring(k, subject) then multiset(keywords)[k] else 0
  {
    if keywords != [] {
      var init, last := keywords[..|keywords| - 1], keywords[|keywords| - 1];
      HitsExact(subject, init);
      assert keywords == init + [last];
      assert multiset(keywords) == multiset(init) + multiset{last};
    }
  }

  /** ... listed in keyword order. */
  lemma {:induction false} HitsInKeywordOrder(subject: string, keywords: seq<string>)
    ensures IsSubseq(Hits(subject, keywords), keywords)
  {
    if keywords != [] {
      var init, k := keywords[..|keywords| - 1], keywords[|keywords| - 1];
      HitsInKeywordOrder(subject, init);
      assert keywords == init + [k];
      if Occurs(k, subject) {
        SubseqSnoc(Hits(subject, init), init, k);
      } else {
        SubseqSkip(Hits(subject, init), init, k);
        assert Hits(subject, keywords) == Hits(subject, init) + [];
        assert Hits(subject, init) + [] == Hits(subject, init);
        assert IsSubseq(Hits(subject, init), init + [k]);
      }
    }
  }

  /** Subjects that differ only in whitespace hit the same keywords. */
  lemma SameWordsSameHits(s: string, t: string, keywords: seq<string>)
    requires Words(s) == Words(t)
    ensures Hits(NormalizeText(s), keywords) == Hits(NormalizeText(t), keywords)
  {
    SameWordsSameNormalForm(s, t);
  }

  /** `match_keywords`: the loop that collects every keyword found in the subject. */
  method MatchKeywords(subject: string, keywords: seq<string>) returns (hits: seq<string>)
    ensures hits == Hits(subject, keywords)
    ensures forall k :: k in hits <==> k in keywords && IsSubstring(k, subject)
    ensures IsSubseq(hits, keywords)
  {
    hits := [];
    for i := 0 to |keywords|
      invariant hits == Hits(subject, keywords[..i])
    {
      var k := keywords[i];
      if Occurs(k, subject) {
        hits := hits + [k];
      }
      assert keywords[..i + 1][..i] == keywords[..i];
    }
    assert keywords[..|keywords|] == keywords;
    HitsExact(subject, keywords);
    HitsInKeywordOrder(subject, keywords);
  }
}

=== FILE: ledger.dfy ===
/** The dedup ledger: the state file's `seen_keys`, loaded as a set
    (`load_state`, `set(state.get("seen_keys", []))`) and saved as
    `{"seen_keys": sorted(seen_keys)}`. */
module Ledger {
  import opened Wrappers
  import opened PyJson

  /** The state file as `load_state` finds it. */
  datatype StateFile =
    | Missing           // `os.path.exists` is false
    | Unparseable       // `json.load` raises
    | Parsed(doc: Json)

  /** The ledger a state file holds, as `set(state.get("seen_keys", []))`
      builds it. A missing file or an absent `seen_keys` is an empty ledger;
      a list of strings gives its strings, a string its one-character
      strings and an object its keys; any other document is corrupt. */
  function LoadLedger(state: StateFile): Result<set<string>>
  {
    match state
    case Missing => Ok({})
    case Unparseable => Err(CorruptState)
    case Parsed(doc) =>
      if !doc.JObject? then Err(CorruptState)
      else
        match Get(doc.fields, "seen_keys")
        case None => Ok({})
        case Some(v) =>
          if v.JList? && forall i | 0 <= i < |v.items| :: v.items[i].JStr? then
            Ok(set i | 0 <= i < |v.items| :: v.items[i].s)
          else if v.JStr? then
            Ok(set i | 0 <= i < |v.s| :: [v.s[i]])
          else if v.JObject? then
            Ok(set i | 0 <= i < |v.fields| :: v.fields[i].0)
          else
            Err(CorruptState)
  }

  /** Loading fails only on an unparseable file, a document that is not a
      dict, or a `seen_keys` that is neither a list of strings, a string nor
      a dict, and then with `CorruptState`; a list of strings gives exactly
      its strings, duplicates merged. */
  lemma LoadLedgerCases(state: StateFile)
    ensures var r := LoadLedger(state);
            r.Err? <==>
              || state.Unparseable?
              || (state.Parsed? && !state.doc.JObject?)
              || (state.Parsed? && state.doc.JObject? && Get(state.doc.fields, "seen_keys").Some?
                  && var v := Get(state.doc.fields, "seen_keys").value;
                     !v.JStr? && !v.JObject? && !(v.JList? && forall i | 0 <= i < |v.items| :: v.items[i].JStr?))
    ensures LoadLedger(state).Err? ==> LoadLedger(state).error == CorruptState
    ensures state.Missing? ==> LoadLedger(state) == Ok({})
    ensures state.Parsed? && state.doc.JObject? && Get(state.doc.fields, "seen_keys").None? ==>
              LoadLedger(state) == Ok({})
    ensures state.Parsed? && state.doc.JObject? && Get(state.doc.fields, "seen_keys").Some? ==>
              var v := Get(state.doc.fields, "seen_keys").value;
              v.JStr? ==> LoadLedger(state).Ok? && forall k :: k in LoadLedger(state).value <==> |k| == 1 && k[0] in v.s
    ensures state.Parsed? && state.doc.JObject? && Get(state.doc.fields, "seen_keys").Some? ==>
              var v := Get(state.doc.fields, "seen_keys").value;
              v.JObject? ==> LoadLedger(state).Ok? && forall k :: k in LoadLedger(state).value <==> Get(v.fields, k).Some?
    ensures state.Parsed? && state.doc.JObject? && Get(state.doc.fields, "seen_keys").Some? ==>
              var v := Get(state.doc.fields, "seen_keys").value;
              v.JList? && (forall i | 0 <= i < |v.items| :: v.items[i].JStr?) ==>
                LoadLedger(state).Ok? && forall k :: k in LoadLedger(state).value <==> JStr(k) in v.items
  {
    if state.Parsed? && state.doc.JObject? && Get(state.doc.fields, "seen_keys").Some? {
      var v := Get(state.doc.fields, "seen_keys").value;
      if v.JStr? {
        forall k | |k| == 1 && k[0] in v.s
          ensures k in LoadLedger(state).value
        {
          var i :| 0 <= i < |v.s| && v.s[i] == k[0];
          assert k == [v.s[i]];
        }
      }
    }
  }

  /** The document `save_json` writes for a saved key list. */
  function StateDoc(saved: seq<string>): Json
  {
    JObject([("seen_keys", JList(seq(|saved|, i requires 0 <= i < |saved| => JStr(saved[i]))))])
  }

  // ---------------------------------------------------------------------------
  // sorted(seen_keys)

  /** Python's `<` on str: code point by code point, a proper prefix first. */
  predicate StrLess(a: string, b: string)
    decreases |a|
  {
    if a == [] then b != []
    else if b == [] then false
    else if a[0] != b[0] then a[0] < b[0]
    else StrLess(a[1..], b[1..])
  }

  lemma {:induction false} StrLessIrreflexive(a: string)
    ensures !StrLess(a, a)
    decreases |a|
  {
    if a != [] {
      StrLessIrreflexive(a[1..]);
    }
  }

  lemma {:induction false} StrLessAsymmetric(a: string, b: string)
    ensures !(StrLess(a, b) && StrLess(b, a))
    decreases |a|
  {
    if a != [] && b != [] && a[0] == b[0] {
      StrLessAsymmetric(a[1..], b[1..]);
    }
  }

  lemma {:induction false} StrLessTransitive(a: string, b: string, c: string)
    requires StrLess(a, b) && StrLess(b, c)
    ensures StrLess(a, c)
    decreases |a|
  {
    if a != [] && a[0] == b[0] && b[0] == c[0] {
      StrLessTransitive(a[1..], b[1..], c[1..]);
    }
  }

  lemma {:induction false} StrLessTotal(a: string, b: string)
    requires a != b
    ensures StrLess(a, b) || StrLess(b, a)
    decreases |a|
  {
    if a != [] && b != [] && a[0] == b[0] {
      assert a[1..] != b[1..] by {
        assert a == [a[0]] + a[1..] && b == [b[0]] + b[1..];
      }
      StrLessTotal(a[1..], b[1..]);
    }
  }

  predicate StrictlySorted(s: seq<string>)
  {
    forall i, j | 0 <= i < j < |s| :: StrLess(s[i], s[j])
  }

  /** Adds `x` to a sorted, duplicate-free list, keeping it so. */
  function InsertSorted(s: seq<string>, x: string): (r: seq<string>)
    requires StrictlySorted(s)
    ensures r != [] && r[0] == if s != [] && StrLess(s[0], x) then s[0] else x
    ensures StrictlySorted(r)
  {
    if s == [] then [x]
    else if x == s[0] then s
    else if StrLess(x, s[0]) then
      StrLessAsymmetric(x, s[0]);
      var r := [x] + s;
      assert forall j | 1 <= j < |r| :: StrLess(x, r[j]) by {
        forall j | 1 <= j < |r| ensures StrLess(x, r[j]) {
          if j > 1 {
            StrLessTransitive(x, s[0], s[j - 1]);
          }
        }
      }
      r
    else
      StrLessTotal(x, s[0]);
      var rest := InsertSorted(s[1..], x);
      var r := [s[0]] + rest;
      assert StrLess(s[0], rest[0]);
      assert forall j | 1 <= j < |r| :: StrLess(s[0], r[j]) by {
        forall j | 1 <= j < |r| ensures StrLess(s[0], r[j]) {
          if j > 1 {
            StrLessTransitive(s[0], rest[0], rest[j - 1]);
          }
        }
      }
      r
  }

  /** Inserting adds `x` and nothing else; the list grows by one exactly
      when `x` was not in it yet. */
  lemma {:induction false} InsertSortedElements(s: seq<string>, x: string)
    requires StrictlySorted(s)
    ensures forall k :: k in InsertSorted(s, x) <==> k in s || k == x
    ensures |InsertSorted(s, x)| == if x in s then |s| else |s| + 1
    decreases |s|
  {
    if s != [] && x != s[0] && !StrLess(x, s[0]) {
      InsertSortedElements(s[1..], x);
      assert s == [s[0]] + s[1..];
    }
  }

  /** `sorted(seen_keys)`: the ledger's keys in ascending order, each once. */
  method SortedKeys(ledger: set<string>) returns (saved: seq<string>)
    ensures StrictlySorted(saved)
    ensures forall k :: k in saved <==> k in ledger
    ensures |saved| == |ledger|
  {
    saved := [];
    var rest := ledger;
    while rest != {}
      invariant rest <= ledger
      invariant StrictlySorted(saved)
      invariant forall k :: k in saved <==> k in ledger - rest
      invariant |saved| == |ledger - rest|
      decreases rest
    {
      var k :| k in rest;
      InsertSortedElements(saved, k);
      saved := InsertSorted(saved, k);
      assert ledger - (rest - {k}) == (ledger - rest) + {k};
      rest := rest - {k};
    }
  }

  /** The saved list is determined by the ledger: two sorted, duplicate-free
      lists with the same keys are the same list. */
  lemma {:induction false} SortedKeysUnique(a: seq<string>, b: seq<string>)
    requires StrictlySorted(a) && StrictlySorted(b)
    requires forall k :: k in a <==> k in b
    ensures a == b
    decreases |a|
  {
    if a != [] {
      assert a[0] in a;
    }
    if b != [] {
      assert b[0] in b;
    }
    if a != [] && b != [] {
      var i :| 0 <= i < |a| && a[i] == b[0];
      var j :| 0 <= j < |b| && b[j] == a[0];
      assert i == 0 || StrLess(a[0], b[0]);
      assert j == 0 || StrLess(b[0], a[0]);
      StrLessAsymmetric(a[0], b[0]);
      StrLessIrreflexive(a[0]);
      assert a[0] == b[0];
      forall k ensures k in a[1..] <==> k in b[1..] {
        if k in a[1..] {
          var p :| 0 <= p < |a[1..]| && a[1..][p] == k;
          assert StrLess(a[0], a[p + 1]);
          StrLessIrreflexive(k);
          assert a[p + 1] in a;
          var q :| 0 <= q < |b| && b[q] == k;
          assert q != 0;
          assert b[1..][q - 1] == k;
        }
        if k in b[1..] {
          var p :| 0 <= p < |b[1..]| && b[1..][p] == k;
          assert StrLess(b[0], b[p + 1]);
          StrLessIrreflexive(k);
          assert b[p + 1] in b;
          var q :| 0 <= q < |a| && a[q] == k;
          assert q != 0;
          assert a[1..][q - 1] == k;
        }
      }
      SortedKeysUnique(a[1..], b[1..]);
      assert a == [a[0]] + a[1..] && b == [b[0]] + b[1..];
    }
  }

  /** Loading what was saved gives back the ledger. */
  lemma {:induction false} LoadAfterSave(ledger: set<string>, saved: seq<string>)
    requires forall k :: k in saved <==> k in ledger
    ensures LoadLedger(Parsed(StateDoc(saved))) == Ok(ledger)
  {
    var items := seq(|saved|, i requires 0 <= i < |saved| => JStr(saved[i]));
    assert Get(StateDoc(saved).fields, "seen_keys") == Some(JList(items));
    assert forall i | 0 <= i < |items| :: items[i].JStr?;
    var loaded := set i | 0 <= i < |items| :: items[i].s;
    assert LoadLedger(Parsed(StateDoc(saved))) == Ok(loaded);
    forall k ensures k in loaded <==> k in ledger {
      if k in ledger {
        var i :| 0 <= i < |saved| && saved[i] == k;
        assert items[i].s == k;
      }
      if k in loaded {
        var i :| 0 <= i < |items| && items[i].s == k;
        assert saved[i] in saved;
      }
    }
    assert loaded == ledger;
  }
}

=== FILE: listing.dfy ===
/** The listing request and the rows of its response: `roc_year`, the
    query `main` builds from the Taipei date, and `list_json["result"]["data"]`. */
module Listing {
  import opened Wrappers
  import opened Text
  import opened PyJson

  /** `roc_year`: the ROC (Minguo) era counts 1912 as year 1. */
  function RocYear(year: int): (roc: int)
    ensures roc + 1911 == year
    ensures year == 1912 ==> roc == 1
  {
    year - 1911
  }

  datatype Query = Query(year: string, month: string, day: string)

  lemma {:induction false} LeadingZeroValue(s: string)
    ensures DecimalValue("0" + s) == DecimalValue(s)
    decreases |s|
  {
    if s != [] {
      assert ("0" + s)[..|"0" + s| - 1] == "0" + s[..|s| - 1];
      LeadingZeroValue(s[..|s| - 1]);
    }
  }

  /** `f"{day:02d}"`: the decimal digits of `day`, with one leading zero added
      when there is only one digit. */
  function TwoDigits(day: nat): (r: string)
    ensures forall i | 0 <= i < |r| :: '0' <= r[i] <= '9'
    ensures DecimalValue(r) == day
    ensures day < 100 ==> |r| == 2
    ensures |r| >= 2 && (|r| > 2 ==> r[0] != '0')
  {
    DecimalRoundTrip(day);
    if day < 10 then
      LeadingZeroValue(NatToDecimal(day));
      "0" + NatToDecimal(day)
    else
      assert NatToDecimal(day) == NatToDecimal(day / 10) + [DigitChar(day % 10)];
      NatToDecimal(day)
  }

  /** The listing query for a Taipei calendar date: ROC year and month
      without padding, day padded to two digits. */
  function ListQuery(year: int, month: nat, day: nat): (q: Query)
    ensures q.year == IntToDecimal(year - 1911)
    ensures q.month == NatToDecimal(month) && DecimalValue(q.month) == month
    ensures DecimalValue(q.day) == day && |q.day| >= 2
    ensures day < 100 ==> |q.day| == 2
    ensures |q.day| > 2 ==> q.day[0] != '0'
  {
    DecimalRoundTrip(month);
    Query(IntToDecimal(RocYear(year)), IntToDecimal(month), TwoDigits(day))
  }

  /** Two digits that read back as the day are exactly the padded day text,
      so the fourth is "04" and never "004" or "4". */
  lemma {:induction false} DayTextUnique(day: nat, r: string)
    requires day < 100
    requires |r| == 2 && forall i | 0 <= i < 2 :: '0' <= r[i] <= '9'
    requires DecimalValue(r) == day
    ensures r == TwoDigits(day)
  {
    var q := TwoDigits(day);
    assert DecimalValue(r) == 10 * DigitValue(r[0]) + DigitValue(r[1]) by {
      assert r[..1][..0] == [];
    }
    assert DecimalValue(q) == 10 * DigitValue(q[0]) + DigitValue(q[1]) by {
      assert q[..1][..0] == [];
    }
    assert r[0] == q[0] && r[1] == q[1] by {
      DigitValueInjective(r[0], q[0]);
      DigitValueInjective(r[1], q[1]);
    }
  }

  lemma DigitValueInjective(a: char, b: char)
    requires '0' <= a <= '9' && '0' <= b <= '9'
    ensures DigitValue(a) == DigitValue(b) <==> a == b
  {
  }

  /** `list_json.get("result", {}).get("data", []) or []`, or `None` when a
      `.get` lands on something that is not a dict. */
  function ListingData(resp: Json): (r: Option<Json>)
    ensures r.None? <==> !resp.JObject? || (Get(resp.fields, "result").Some? && !Get(resp.fields, "result").value.JObject?)
    ensures resp.JObject? && Get(resp.fields, "result").None? ==> r == Some(JList([]))
    ensures r.Some? && Get(resp.fields, "result").Some? ==>
              var data := Get(Get(resp.fields, "result").value.fields, "data");
              r.value == if data.Some? && Truthy(data.value) then data.value else JList([])
    ensures r.Some? ==> Truthy(r.value) || r.value == JList([])
  {
    if !resp.JObject? then None
    else
      var result := Get(resp.fields, "result").GetOr(JObject([]));
      if !result.JObject? then None
      else
        var data := Get(result.fields, "data").GetOr(JList([]));
        Some(if Truthy(data) then data else JList([]))
  }

  /** What `for row in data` visits: a list's elements, a string's
      characters or a dict's keys; any other value cannot be iterated. */
  function DataRows(data: Json): (r: Result<seq<Json>>)
    ensures r.Err? <==> data.JNull? || data.JBool? || data.JInt?
    ensures data.JList? ==> r == Ok(data.items)
    ensures data.JStr? ==> r.Ok? && |r.value| == |data.s| && forall i | 0 <= i < |data.s| :: r.value[i] == JStr([data.s[i]])
    ensures data.JObject? ==> r.Ok? && |r.value| == |data.fields| && forall i | 0 <= i < |data.fields| :: r.value[i] == JStr(data.fields[i].0)
  {
    match data
    case JList(items) => Ok(items)
    case JStr(s) => Ok(CharRows(s))
    case JObject(fields) => Ok(KeyRows(fields))
    case _ => Err(MalformedResponse)
  }

  /** The response the listing endpoint sends for a day with `rows`. */
  function ListingResponse(rows: seq<Json>): Json
  {
    JObject([("result", JObject([("data", JList(rows))]))])
  }

  /** Reading the rows back out of a listing response gives the rows sent,
      the empty day included. */
  lemma ListingRowsRoundTrip(rows: seq<Json>)
    ensures ListingData(ListingResponse(rows)).Some?
    ensures DataRows(ListingData(ListingResponse(rows)).value) == Ok(rows)
  {
  }

  /** Iterating a string yields its characters as one-character strings. */
  function CharRows(s: string): (rows: seq<Json>)
    ensures |rows| == |s| && forall i | 0 <= i < |rows| :: rows[i] == JStr([s[i]])
  {
    seq(|s|, i requires 0 <= i < |s| => JStr([s[i]]))
  }

  /** Iterating a dict yields its keys. */
  function KeyRows(fields: Dict): (rows: seq<Json>)
    ensures |rows| == |fields| && forall i | 0 <= i < |rows| :: rows[i] == JStr(fields[i].0)
  {
    seq(|fields|, i requires 0 <= i < |fields| => JStr(fields[i].0))
  }
}

=== FILE: pipeline.dfy ===
/** The match / dedup / digest pipeline of `main` (scripts/fetch_mops.py):
    screen each listing row, fetch details only for keyword hits, split the
    hits into new and already-seen by the ledger snapshot, merge every hit's
    key into the ledger, save it sorted and build the digest of new hits. */
module Pipeline {
  import opened Wrappers
  import opened Seqs
  import opened Text
  import opened PyJson
  import opened Keywords
  import opened Identity
  import opened Ledger
  import opened Records
  import opened Digest
  import opened Listing

  /** A listing row that passed every filter, before its detail is fetched. */
  datatype Candidate = Candidate(
    speechDate: string,
    speechTime: string,
    companyId: string,
    companyName: string,
    subject: string,
    hits: seq<string>,
    params: Dict,
    key: string)

  /** The detail lookup for one row's parameters (`http_post_json(DETAIL_API, params)`). */
  type DetailFetch = Dict -> Result<Json>

  /** The row shape check: a list of at least six cells. */
  predicate WellShaped(row: Json)
  {
    row.JList? && |row.items| >= 6
  }

  /** The detail parameters of a row's sixth cell, or `None` when the row is
      skipped because `parameters` is truthy but not a dict. A cell that is
      not a dict, or an absent or falsy `parameters`, gives empty parameters;
      a dict `parameters` gives its members. */
  function DetailParams(cell: Json): (r: Option<Dict>)
    ensures r.None? ==> cell.JObject?
    ensures !cell.JObject? ==> r == Some([])
  {
    var detailMeta := if cell.JObject? then cell.fields else [];
    match Get(detailMeta, "parameters")
    case None => Some([])
    case Some(v) =>
      if !Truthy(v) then Some([])
      else if v.JObject? then Some(v.fields)
      else None
  }

  /** The three outcomes of `DetailParams` for a dict cell, by its `parameters`. */
  lemma DetailParamsCases(cell: Json)
    ensures DetailParams(cell).None? <==>
              cell.JObject? && Get(cell.fields, "parameters").Some?
              && Truthy(Get(cell.fields, "parameters").value) && !Get(cell.fields, "parameters").value.JObject?
    ensures cell.JObject? && Get(cell.fields, "parameters").Some? && Get(cell.fields, "parameters").value.JObject? ==>
              DetailParams(cell) == Some(Get(cell.fields, "parameters").value.fields)
    ensures !cell.JObject? || Get(cell.fields, "parameters").None? || !Truthy(Get(cell.fields, "parameters").value) ==>
              DetailParams(cell) == Some([])
  {
  }

  /** One pass of the loop body up to the detail fetch: the candidate a row
      yields, or `None` when the row is skipped. */
  function Screen(row: Json, keywords: seq<string>): Option<Candidate>
  {
    if !WellShaped(row) then None
    else
      var cells := row.items;
      var subject := NormalizeText(PyStr(cells[4]));
      match DetailParams(cells[5])
      case None => None
      case Some(params) =>
        var hits := Hits(subject, keywords);
        if hits == [] then None
        else
          Some(Candidate(
            NormalizeText(PyStr(cells[0])), NormalizeText(PyStr(cells[1])),
            NormalizeText(PyStr(cells[2])), NormalizeText(PyStr(cells[3])),
            subject, hits, params, BuildItemKey(params)))
  }

  /** A row yields a candidate only when it is well shaped, its parameters
      are a dict and its subject has a hit; the hits are exactly the
      keywords occurring in the normalised subject, in keyword order, and
      every text field is the normalised `str()` of its own cell. */
  lemma ScreenSound(row: Json, keywords: seq<string>)
    ensures var r := Screen(row, keywords);
            r.Some? ==>
              && WellShaped(row) && DetailParams(row.items[5]) == Some(r.value.params)
              && r.value.speechDate == NormalizeText(PyStr(row.items[0]))
              && r.value.speechTime == NormalizeText(PyStr(row.items[1]))
              && r.value.companyId == NormalizeText(PyStr(row.items[2]))
              && r.value.companyName == NormalizeText(PyStr(row.items[3]))
              && r.value.subject == NormalizeText(PyStr(row.items[4]))
              && r.value.hits != []
              && r.value.hits == Hits(r.value.subject, keywords)
              && (forall k :: k in r.value.hits <==> k in keywords && IsSubstring(k, r.value.subject))
              && IsSubseq(r.value.hits, keywords)
              && r.value.key == BuildItemKey(r.value.params)
              && Normalized(r.value.speechDate) && Normalized(r.value.speechTime)
              && Normalized(r.value.companyId) && Normalized(r.value.companyName)
              && Normalized(r.value.subject)
  {
    if Screen(row, keywords).Some? {
      var cells := row.items;
      var subject := NormalizeText(PyStr(cells[4]));
      HitsExact(subject, keywords);
      HitsInKeywordOrder(subject, keywords);
      NormalizeTextIsNormalized(PyStr(cells[0]));
      NormalizeTextIsNormalized(PyStr(cells[1]));
      NormalizeTextIsNormalized(PyStr(cells[2]));
      NormalizeTextIsNormalized(PyStr(cells[3]));
      NormalizeTextIsNormalized(PyStr(cells[4]));
    }
  }

  /** Conversely, a row with at least six cells, dict parameters and a
      keyword in its normalised subject yields a candidate: the filters of
      the loop body are the only reasons to skip a row. */
  lemma ScreenComplete(row: Json, keywords: seq<string>)
    ensures Screen(row, keywords).Some? <==>
              WellShaped(row) && DetailParams(row.items[5]).Some?
              && Hits(NormalizeText(PyStr(row.items[4])), keywords) != []
  {
  }

  function AsSeq(o: Option<Candidate>): seq<Candidate>
  {
    if o.Some? then [o.value] else []
  }

  /** The candidates of a listing, in listing order. */
  function Candidates(rows: seq<Json>, keywords: seq<string>): seq<Candidate>
  {
    if rows == [] then []
    else Candidates(rows[..|rows| - 1], keywords) + AsSeq(Screen(rows[|rows| - 1], keywords))
  }

  /** The detail-lookup parameters of each candidate, in order. */
  function ParamsOf(cs: seq<Candidate>): (ps: seq<Dict>)
    ensures |ps| == |cs|
  {
    seq(|cs|, i requires 0 <= i < |cs| => cs[i].params)
  }

  lemma ParamsOfSnoc(cs: seq<Candidate>, c: Candidate)
    ensures ParamsOf(cs + [c]) == ParamsOf(cs) + [c.params]
  {
    assert forall i | 0 <= i < |cs| :: (cs + [c])[i] == cs[i];
  }

  function ToItem(c: Candidate, detail: Json, fetchedAt: string): Item
  {
    Item(c.key, c.speechDate, c.speechTime, c.companyId, c.companyName, c.subject,
         c.hits, c.params, detail, fetchedAt)
  }

  /** Fetches the detail of each candidate in order; the first failed lookup
      ends the run. */
  function FetchAll(cs: seq<Candidate>, fetch: DetailFetch, fetchedAt: string): Result<seq<Item>>
  {
    if cs == [] then Ok([])
    else
      var before := FetchAll(cs[..|cs| - 1], fetch, fetchedAt);
      var c := cs[|cs| - 1];
      if before.Err? then before
      else
        match fetch(c.params)
        case Err(e) => Err(e)
        case Ok(detail) => Ok(before.value + [ToItem(c, detail, fetchedAt)])
  }

  /** `matched_items`: one item per candidate, in listing order, each with
      the detail fetched for its own parameters. */
  lemma {:induction false} FetchAllItems(cs: seq<Candidate>, fetch: DetailFetch, fetchedAt: string)
    requires FetchAll(cs, fetch, fetchedAt).Ok?
    ensures var items := FetchAll(cs, fetch, fetchedAt).value;
            && |items| == |cs|
            && forall i | 0 <= i < |cs| ::
                 fetch(cs[i].params).Ok? && items[i] == ToItem(cs[i], fetch(cs[i].params).value, fetchedAt)
  {
    if cs != [] {
      FetchAllItems(cs[..|cs| - 1], fetch, fetchedAt);
    }
  }

  /** A failed lookup is final: later candidates do not change the outcome. */
  lemma {:induction false} FetchAllErrPersists(a: seq<Candidate>, b: seq<Candidate>, fetch: DetailFetch, fetchedAt: string)
    requires FetchAll(a, fetch, fetchedAt).Err?
    ensures FetchAll(a + b, fetch, fetchedAt) == FetchAll(a, fetch, fetchedAt)
    decreases |b|
  {
    if b == [] {
      assert a + b == a;
    } else {
      var b' := b[..|b| - 1];
      FetchAllErrPersists(a, b', fetch, fetchedAt);
      assert (a + b)[..|a + b| - 1] == a + b';
    }
  }

  lemma {:induction false} CandidatesAppend(a: seq<Json>, b: seq<Json>, keywords: seq<string>)
    ensures Candidates(a + b, keywords) == Candidates(a, keywords) + Candidates(b, keywords)
    decreases |b|
  {
    if b == [] {
      assert a + b == a;
    } else {
      var b', x := b[..|b| - 1], b[|b| - 1];
      CandidatesAppend(a, b', keywords);
      assert (a + b)[..|a + b| - 1] == a + b';
      assert (a + b)[|a + b| - 1] == x;
      var last := AsSeq(Screen(x, keywords));
      assert Candidates(a + b, keywords) == Candidates(a + b', keywords) + last;
      assert Candidates(b, keywords) == Candidates(b', keywords) + last;
      AppendAssoc(Candidates(a, keywords), Candidates(b', keywords), last);
    }
  }

  /** A row that is skipped (wrong shape, parameters not a dict, or no
      keyword hit) contributes nothing: the listing without it has the same
      candidates, so it is never fetched and never matched. */
  lemma {:induction false} SkippedRowContributesNothing(rows: seq<Json>, i: nat, keywords: seq<string>)
    requires i < |rows|
    requires Screen(rows[i], keywords).None?
    ensures Candidates(rows, keywords) == Candidates(rows[..i] + rows[i + 1..], keywords)
  {
    CandidatesAround(rows, i, keywords);
    CandidatesAppend(rows[..i], rows[i + 1..], keywords);
  }

  /** The candidates of a listing, split around its row `i`. */
  lemma {:induction false} CandidatesAround(rows: seq<Json>, i: nat, keywords: seq<string>)
    requires i < |rows|
    ensures Candidates(rows, keywords) ==
              Candidates(rows[..i], keywords) + AsSeq(Screen(rows[i], keywords)) + Candidates(rows[i + 1..], keywords)
  {
    assert rows == rows[..i] + [rows[i]] + rows[i + 1..];
    CandidatesAppend(rows[..i] + [rows[i]], rows[i + 1..], keywords);
    CandidatesAppend(rows[..i], [rows[i]], keywords);
    assert [rows[i]][..0] == [];
  }

  /** Every row that yields a candidate is among the listing's candidates,
      so its detail is fetched and it is matched. */
  lemma {:induction false} ScreenedRowIsCandidate(rows: seq<Json>, i: nat, keywords: seq<string>, c: Candidate)
    requires i < |rows|
    requires Screen(rows[i], keywords) == Some(c)
    ensures c in Candidates(rows, keywords)
  {
    CandidatesAround(rows, i, keywords);
  }

  /** A listing of one well-shaped row whose subject holds no whitespace and
      contains the only keyword gives one candidate, with that keyword as its
      only hit, that subject and that row's parameters. */
  lemma {:induction false} SingleRowListing(row: Json, keyword: string, params: Dict)
    requires WellShaped(row) && DetailParams(row.items[5]) == Some(params)
    requires (forall i | 0 <= i < |PyStr(row.items[4])| :: !IsSpace(PyStr(row.items[4])[i])) && Occurs(keyword, PyStr(row.items[4]))
    ensures var cs := Candidates([row], [keyword]);
            |cs| == 1 && cs[0].hits == [keyword] && cs[0].subject == PyStr(row.items[4]) && cs[0].params == params
  {
    var subject := PyStr(row.items[4]);
    NoSpacesNormalized(subject);
    assert [keyword][..0] == [];
    assert Hits(subject, [keyword]) == [keyword];
    assert [row][..0] == [];
  }

  /** The parameters of the treasury-stock announcement used below. */
  const TreasuryParams: Dict := [("companyId", JStr("3004")), ("serialNumber", JInt(1))]

  /** A listing row announcing a treasury stock (庫藏股) transfer. */
  const TreasuryRow: Json :=
    JList([JStr("114/01/02"), JStr("17:32:17"), JStr("3004"), JStr("豐達科"),
           JStr("公司進行庫藏股轉讓"), JObject([("parameters", JObject(TreasuryParams))])])

  /** A listing of that one announcement, with 庫藏股 as the only keyword,
      gives one candidate whose only hit is 庫藏股. */
  lemma TreasuryStockExample()
    ensures var cs := Candidates([TreasuryRow], ["庫藏股"]);
            |cs| == 1 && cs[0].hits == ["庫藏股"] && cs[0].subject == "公司進行庫藏股轉讓"
            && cs[0].params == TreasuryParams
  {
    var subject := "公司進行庫藏股轉讓";
    assert forall i | 0 <= i < |subject| :: subject[i] > '\U{3000}';
    assert IsPrefix("庫藏股", subject[4..]);
    assert IsSubstring("庫藏股", subject);
    assert DetailParams(TreasuryRow.items[5]) == Some(TreasuryParams);
    SingleRowListing(TreasuryRow, "庫藏股", TreasuryParams);
  }

  /** Rows failing the shape check and rows without a keyword hit are skipped. */
  lemma SkippedRows(row: Json, keywords: seq<string>)
    ensures !WellShaped(row) ==> Screen(row, keywords).None?
    ensures WellShaped(row) && Hits(NormalizeText(PyStr(row.items[4])), keywords) == [] ==>
              Screen(row, keywords).None?
  {
  }

  /** With no keywords nothing ever matches. */
  lemma {:induction false} NoKeywordsNoCandidates(rows: seq<Json>)
    ensures Candidates(rows, []) == []
  {
    if rows != [] {
      NoKeywordsNoCandidates(rows[..|rows| - 1]);
    }
  }

  /** A listing whose rows are all strings (what iterating a string or a dict
      yields) has no candidates. */
  lemma {:induction false} StringRowsNoCandidates(rows: seq<Json>, keywords: seq<string>)
    requires forall i | 0 <= i < |rows| :: rows[i].JStr?
    ensures Candidates(rows, keywords) == []
  {
    if rows != [] {
      StringRowsNoCandidates(rows[..|rows| - 1], keywords);
    }
  }

  // ---------------------------------------------------------------------------
  // new_matched_items and the ledger merge

  /** The items whose key is not in the ledger snapshot, in order. */
  function NewItems(items: seq<Item>, snapshot: set<string>): (r: seq<Item>)
    ensures |r| <= |items|
  {
    if items == [] then []
    else
      var last := items[|items| - 1];
      NewItems(items[..|items| - 1], snapshot) + (if last.key !in snapshot then [last] else [])
  }

  /** `new_matched_items` holds exactly the matched items with an unseen
      key, in matched order, each as often as it was matched. */
  lemma {:induction false} NewItemsExact(items: seq<Item>, snapshot: set<string>)
    ensures forall it :: it in NewItems(items, snapshot) <==> it in items && it.key !in snapshot
    ensures forall it :: multiset(NewItems(items, snapshot))[it] == if it.key in snapshot then 0 else multiset(items)[it]
    ensures IsSubseq(NewItems(items, snapshot), items)
  {
    NewItemsCount(items, snapshot);
    if items != [] {
      var init, last := items[..|items| - 1], items[|items| - 1];
      NewItemsExact(init, snapshot);
      assert items == init + [last];
      if last.key !in snapshot {
        SubseqSnoc(NewItems(init, snapshot), init, last);
      } else {
        SubseqSkip(NewItems(init, snapshot), init, last);
        assert NewItems(init, snapshot) + [] == NewItems(init, snapshot);
      }
    }
  }

  lemma {:induction false} NewItemsCount(items: seq<Item>, snapshot: set<string>)
    ensures forall it :: multiset(NewItems(items, snapshot))[it] == if it.key in snapshot then 0 else multiset(items)[it]
  {
    if items != [] {
      var init, last := items[..|items| - 1], items[|items| - 1];
      NewItemsCount(init, snapshot);
      assert items == init + [last];
      assert multiset(items) == multiset(init) + multiset{last};
    }
  }

  /** The keys of a list of items. */
  function KeysOf(items: seq<Item>): set<string>
  {
    set i | 0 <= i < |items| :: items[i].key
  }

  /** Against a ledger that already holds every matched key, nothing is new. */
  lemma {:induction false} KnownKeysNothingNew(items: seq<Item>, ledger: set<string>)
    requires KeysOf(items) <= ledger
    ensures NewItems(items, ledger) == []
  {
    if items != [] {
      var init := items[..|items| - 1];
      assert KeysOf(init) <= KeysOf(items) by {
        forall k | k in KeysOf(init) ensures k in KeysOf(items) {
          var i :| 0 <= i < |init| && init[i].key == k;
          assert items[i].key == k;
        }
      }
      KnownKeysNothingNew(init, ledger);
      assert items[|items| - 1].key in KeysOf(items);
    }
  }

  /** The header date of the digest: `speech_date` as the last row that
      passed the shape check left it, not the date of any new item. */
  function LastShapedDate(rows: seq<Json>): Option<string>
  {
    if rows == [] then None
    else if WellShaped(rows[|rows| - 1]) then Some(NormalizeText(PyStr(rows[|rows| - 1].items[0])))
    else LastShapedDate(rows[..|rows| - 1])
  }

  // ---------------------------------------------------------------------------
  // The run

  datatype RunResult = RunResult(
    matched: seq<Item>,
    newMatched: seq<Item>,
    ledger: set<string>,
    saved: seq<string>,
    digest: Option<seq<string>>,
    message: Option<string>)

  /** What one run over `rows` must produce from the ledger `snapshot`. */
  ghost predicate RunOf(rows: seq<Json>, keywords: seq<string>, snapshot: set<string>,
                        fetch: DetailFetch, fetchedAt: string, r: RunResult)
  {
    && FetchAll(Candidates(rows, keywords), fetch, fetchedAt) == Ok(r.matched)
    && r.newMatched == NewItems(r.matched, snapshot)
    && r.ledger == snapshot + KeysOf(r.matched)
    && StrictlySorted(r.saved) && (forall k :: k in r.saved <==> k in r.ledger)
    && (r.digest.Some? <==> r.newMatched != [])
    && (r.message.Some? <==> r.digest.Some?)
    && (r.digest.Some? ==>
          && LastShapedDate(rows).Some?
          && IsDigest(r.newMatched, LastShapedDate(rows).value, r.digest.value)
          && r.message.value == Join(r.digest.value, "\n")
          && Split(r.message.value, '\n') == r.digest.value)
  }

  lemma {:induction false} LastShapedDateNormalized(rows: seq<Json>)
    requires LastShapedDate(rows).Some?
    ensures Normalized(LastShapedDate(rows).value)
  {
    if WellShaped(rows[|rows| - 1]) {
      NormalizeTextIsNormalized(PyStr(rows[|rows| - 1].items[0]));
    } else {
      LastShapedDateNormalized(rows[..|rows| - 1]);
    }
  }

  /** Fetching one more candidate's detail. */
  lemma FetchStep(cs: seq<Candidate>, c: Candidate, fetch: DetailFetch, fetchedAt: string, matched: seq<Item>)
    requires FetchAll(cs, fetch, fetchedAt) == Ok(matched)
    ensures fetch(c.params).Err? ==> FetchAll(cs + [c], fetch, fetchedAt) == Err(fetch(c.params).error)
    ensures fetch(c.params).Ok? ==>
              FetchAll(cs + [c], fetch, fetchedAt) == Ok(matched + [ToItem(c, fetch(c.params).value, fetchedAt)])
  {
    assert (cs + [c])[..|cs|] == cs;
  }

  /** Extending the listing prefix by one row. */
  lemma RowStep(rows: seq<Json>, i: nat, keywords: seq<string>)
    requires i < |rows|
    ensures Candidates(rows[..i + 1], keywords) == Candidates(rows[..i], keywords) + AsSeq(Screen(rows[i], keywords))
    ensures LastShapedDate(rows[..i + 1]) ==
              if WellShaped(rows[i]) then Some(NormalizeText(PyStr(rows[i].items[0]))) else LastShapedDate(rows[..i])
  {
    assert rows[..i + 1][..i] == rows[..i];
  }

  /** The body of the row loop up to the detail fetch (fetch_mops.py:138-160):
      `date` is the value `speech_date` takes when the row passes the shape
      check, `candidate` what the row yields. */
  method ScreenRow(row: Json, keywords: seq<string>) returns (date: Option<string>, candidate: Option<Candidate>)
    ensures date.Some? <==> WellShaped(row)
    ensures date.Some? ==> date.value == NormalizeText(PyStr(row.items[0]))
    ensures candidate == Screen(row, keywords)
  {
    date, candidate := None, None;
    if !row.JList? || |row.items| < 6 {
      return;
    }
    date := Some(NormalizeText(PyStr(row.items[0])));
    var speechTime := NormalizeText(PyStr(row.items[1]));
    var companyId := NormalizeText(PyStr(row.items[2]));
    var companyName := NormalizeText(PyStr(row.items[3]));
    var subject := NormalizeText(PyStr(row.items[4]));
    var params := DetailParams(row.items[5]);
    if params.None? {
      return;
    }
    var hits := MatchKeywords(subject, keywords);
    if hits == [] {
      return;
    }
    var key := BuildItemKey(params.value);
    candidate := Some(Candidate(date.value, speechTime, companyId, companyName, subject, hits, params.value, key));
  }

  /** The loop of `main` over the listing rows (fetch_mops.py:137-178):
      `matched` and `newMatched` are `matched_items` and
      `new_matched_items`, `speechDate` the loop variable `speech_date` as the
      loop leaves it, and `fetched` the parameters of every detail lookup
      made, in order. A failed lookup ends the loop with `failure`. */
  method MatchRows(rows: seq<Json>, keywords: seq<string>, snapshot: set<string>,
                   fetch: DetailFetch, fetchedAt: string)
    returns (failure: Option<Failure>, matched: seq<Item>, newMatched: seq<Item>,
             speechDate: Option<string>, fetched: seq<Dict>)
    ensures failure.None? <==> FetchAll(Candidates(rows, keywords), fetch, fetchedAt).Ok?
    ensures failure.Some? ==> Err(failure.value) == FetchAll(Candidates(rows, keywords), fetch, fetchedAt)
    ensures failure.None? ==> FetchAll(Candidates(rows, keywords), fetch, fetchedAt) == Ok(matched)
    ensures failure.None? ==> newMatched == NewItems(matched, snapshot)
    ensures failure.None? ==> speechDate == LastShapedDate(rows)
    ensures |fetched| <= |Candidates(rows, keywords)|
    ensures fetched == ParamsOf(Candidates(rows, keywords))[..|fetched|]
    ensures failure.None? ==> fetched == ParamsOf(Candidates(rows, keywords))
  {
    matched, newMatched, speechDate, fetched := [], [], None, [];
    for i := 0 to |rows|
      invariant FetchAll(Candidates(rows[..i], keywords), fetch, fetchedAt) == Ok(matched)
      invariant newMatched == NewItems(matched, snapshot)
      invariant speechDate == LastShapedDate(rows[..i])
      invariant fetched == ParamsOf(Candidates(rows[..i], keywords))
    {
      RowStep(rows, i, keywords);
      var date, candidate := ScreenRow(rows[i], keywords);
      if date.Some? {
        speechDate := date;
      }
      if candidate.None? {
        assert Candidates(rows[..i], keywords) + [] == Candidates(rows[..i], keywords);
        continue;
      }
      var c := candidate.value;
      assert Candidates(rows[..i + 1], keywords) == Candidates(rows[..i], keywords) + [c];
      FetchStep(Candidates(rows[..i], keywords), c, fetch, fetchedAt, matched);
      ParamsOfSnoc(Candidates(rows[..i], keywords), c);
      fetched := fetched + [c.params];
      var detail := fetch(c.params);
      if detail.Err? {
        failure := Some(detail.error);
        FailureEndsRun(rows, i + 1, keywords, fetch, fetchedAt);
        return;
      }
      var item := ToItem(c, detail.value, fetchedAt);
      matched := matched + [item];
      if c.key !in snapshot {
        newMatched := newMatched + [item];
      }
    }
    assert rows[..|rows|] == rows;
    failure := None;
  }

  /** The loop adding each matched item's key to `seen_keys`
      (fetch_mops.py:180-182): the ledger after the run is the snapshot
      together with every matched key. */
  method MergeKeys(snapshot: set<string>, matched: seq<Item>) returns (seen: set<string>)
    ensures seen == snapshot + KeysOf(matched)
  {
    seen := snapshot;
    for j := 0 to |matched|
      invariant seen == snapshot + KeysOf(matched[..j])
    {
      assert KeysOf(matched[..j + 1]) == KeysOf(matched[..j]) + {matched[j].key} by {
        assert forall m | 0 <= m < j :: matched[..j + 1][m] == matched[..j][m];
      }
      seen := seen + {matched[j].key};
    }
    assert matched[..|matched|] == matched;
  }

  /** One run after the listing has been fetched and the ledger loaded:
      the row loop, the merge, the sorted save (fetch_mops.py:224) and the
      digest of new items (fetch_mops.py:227-235). */
  method Run(rows: seq<Json>, keywords: seq<string>, snapshot: set<string>,
             fetch: DetailFetch, fetchedAt: string)
    returns (outcome: Result<RunResult>, fetched: seq<Dict>)
    ensures outcome.Ok? <==> FetchAll(Candidates(rows, keywords), fetch, fetchedAt).Ok?
    ensures outcome.Err? ==> outcome.error == FetchAll(Candidates(rows, keywords), fetch, fetchedAt).error
    ensures outcome.Ok? ==> RunOf(rows, keywords, snapshot, fetch, fetchedAt, outcome.value)
    ensures |fetched| <= |Candidates(rows, keywords)|
    ensures fetched == ParamsOf(Candidates(rows, keywords))[..|fetched|]
    ensures outcome.Ok? ==> fetched == ParamsOf(Candidates(rows, keywords))
  {
    var failure, matched, newMatched, speechDate;
    failure, matched, newMatched, speechDate, fetched := MatchRows(rows, keywords, snapshot, fetch, fetchedAt);
    if failure.Some? {
      outcome := Err(failure.value);
      return;
    }
    var seen := MergeKeys(snapshot, matched);
    var saved := SortedKeys(seen);
    var digest: Option<seq<string>> := None;
    var message: Option<string> := None;
    if newMatched != [] {
      NewItemsExact(matched, snapshot);
      assert newMatched[0] in matched;
      CandidatesGiveDate(rows, keywords);
      var lines := BuildDigest(newMatched, speechDate.value);
      digest := Some(lines);
      message := Some(Join(lines, "\n"));
      MessageSplitsIntoLines(rows, keywords, snapshot, fetch, fetchedAt, matched, lines);
    }
    outcome := Ok(RunResult(matched, newMatched, seen, saved, digest, message));
  }

  /** When the lookup for the last candidate of `rows[..n]` fails, the run's
      outcome is that failure, and the lookups made are a prefix of all
      candidates' lookups. */
  lemma FailureEndsRun(rows: seq<Json>, n: nat, keywords: seq<string>, fetch: DetailFetch, fetchedAt: string)
    requires n <= |rows|
    requires FetchAll(Candidates(rows[..n], keywords), fetch, fetchedAt).Err?
    ensures FetchAll(Candidates(rows, keywords), fetch, fetchedAt) == FetchAll(Candidates(rows[..n], keywords), fetch, fetchedAt)
    ensures |Candidates(rows[..n], keywords)| <= |Candidates(rows, keywords)|
    ensures ParamsOf(Candidates(rows[..n], keywords)) == ParamsOf(Candidates(rows, keywords))[..|Candidates(rows[..n], keywords)|]
  {
    var a, b := Candidates(rows[..n], keywords), Candidates(rows[n..], keywords);
    assert Candidates(rows, keywords) == a + b by {
      assert rows == rows[..n] + rows[n..];
      CandidatesAppend(rows[..n], rows[n..], keywords);
    }
    FetchAllErrPersists(a, b, fetch, fetchedAt);
    ParamsOfPrefix(a, b);
  }

  lemma ParamsOfPrefix(a: seq<Candidate>, b: seq<Candidate>)
    ensures ParamsOf(a + b)[..|a|] == ParamsOf(a)
  {
    assert forall i | 0 <= i < |a| :: (a + b)[i] == a[i];
  }

  /** A listing with a candidate has a row that passed the shape check, so
      the digest header's date is defined whenever there is a new item. */
  lemma {:induction false} CandidatesGiveDate(rows: seq<Json>, keywords: seq<string>)
    ensures Candidates(rows, keywords) != [] ==> LastShapedDate(rows).Some?
  {
    if rows != [] && !WellShaped(rows[|rows| - 1]) {
      CandidatesGiveDate(rows[..|rows| - 1], keywords);
    }
  }

  lemma MessageSplitsIntoLines(rows: seq<Json>, keywords: seq<string>, snapshot: set<string>,
                               fetch: DetailFetch, fetchedAt: string, matched: seq<Item>, lines: seq<string>)
    requires FetchAll(Candidates(rows, keywords), fetch, fetchedAt) == Ok(matched)
    requires LastShapedDate(rows).Some?
    requires IsDigest(NewItems(matched, snapshot), LastShapedDate(rows).value, lines)
    ensures Split(Join(lines, "\n"), '\n') == lines
  {
    var cs := Candidates(rows, keywords);
    FetchAllItems(cs, fetch, fetchedAt);
    NewItemsExact(matched, snapshot);
    var unseen := NewItems(matched, snapshot);
    forall i | 0 <= i < |unseen| ensures SingleLine(unseen[i]) {
      assert unseen[i] in matched;
      var j :| 0 <= j < |matched| && matched[j] == unseen[i];
      var c := cs[j];
      assert c in cs;
      CandidateSingleLine(rows, keywords, c);
    }
    LastShapedDateNormalized(rows);
    NormalizedHasNoNewline(LastShapedDate(rows).value);
    DigestMessageLines(unseen, LastShapedDate(rows).value, lines);
  }

  lemma {:induction false} CandidateSingleLine(rows: seq<Json>, keywords: seq<string>, c: Candidate)
    requires c in Candidates(rows, keywords)
    ensures '\n' !in c.companyId && '\n' !in c.companyName && '\n' !in c.speechTime && '\n' !in c.subject
    ensures forall k | k in c.hits :: '\n' !in k
  {
    var init := rows[..|rows| - 1];
    if c in Candidates(init, keywords) {
      CandidateSingleLine(init, keywords, c);
    } else {
      assert Screen(rows[|rows| - 1], keywords) == Some(c);
      ScreenSound(rows[|rows| - 1], keywords);
      NormalizedHasNoNewline(c.companyId);
      NormalizedHasNoNewline(c.companyName);
      NormalizedHasNoNewline(c.speechTime);
      NormalizedHasNoNewline(c.subject);
      forall k | k in c.hits ensures '\n' !in k {
        SubstringChars(k, c.subject);
      }
    }
  }

  // ---------------------------------------------------------------------------
  // Reruns

  /** The keys the candidates of a listing carry. */
  function CandidateKeys(cs: seq<Candidate>): set<string>
  {
    set i | 0 <= i < |cs| :: cs[i].key
  }

  /** The keys of the fetched items are the candidates' keys, whatever the
      detail lookups returned. */
  lemma MatchedKeys(cs: seq<Candidate>, fetch: DetailFetch, fetchedAt: string)
    requires FetchAll(cs, fetch, fetchedAt).Ok?
    ensures KeysOf(FetchAll(cs, fetch, fetchedAt).value) == CandidateKeys(cs)
  {
    FetchAllItems(cs, fetch, fetchedAt);
    var items := FetchAll(cs, fetch, fetchedAt).value;
    forall k ensures k in KeysOf(items) <==> k in CandidateKeys(cs) {
      if k in KeysOf(items) {
        var i :| 0 <= i < |items| && items[i].key == k;
        assert cs[i].key == k;
      }
      if k in CandidateKeys(cs) {
        var i :| 0 <= i < |cs| && cs[i].key == k;
        assert items[i].key == k;
      }
    }
  }

  /** A second run over the same listing, started from the ledger the first
      run saved, finds nothing new, sends no digest and leaves the ledger
      and the saved list as they were, even when the detail lookups now
      return something else. */
  lemma RerunFindsNothingNew(rows: seq<Json>, keywords: seq<string>, snapshot: set<string>,
                             fetch1: DetailFetch, at1: string, r1: RunResult,
                             fetch2: DetailFetch, at2: string, r2: RunResult)
    requires RunOf(rows, keywords, snapshot, fetch1, at1, r1)
    requires RunOf(rows, keywords, r1.ledger, fetch2, at2, r2)
    ensures r2.newMatched == [] && r2.digest == None && r2.message == None
    ensures KeysOf(r2.matched) == KeysOf(r1.matched) && |r2.matched| == |r1.matched|
    ensures r2.ledger == r1.ledger && r2.saved == r1.saved
  {
    var cs := Candidates(rows, keywords);
    MatchedKeys(cs, fetch1, at1);
    MatchedKeys(cs, fetch2, at2);
    FetchAllItems(cs, fetch1, at1);
    FetchAllItems(cs, fetch2, at2);
    KnownKeysNothingNew(r2.matched, r1.ledger);
    SortedKeysUnique(r2.saved, r1.saved);
  }

  /** The digest header takes its date from the last row that passed the
      shape check, even when that row matched nothing: such a row adds no
      candidate but still moves the header date. */
  lemma HeaderDateFromLastShapedRow(rows: seq<Json>, row: Json, keywords: seq<string>)
    requires WellShaped(row) && Screen(row, keywords).None?
    ensures Candidates(rows + [row], keywords) == Candidates(rows, keywords)
    ensures LastShapedDate(rows + [row]) == Some(NormalizeText(PyStr(row.items[0])))
  {
    assert (rows + [row])[..|rows|] == rows;
    assert Candidates(rows, keywords) + [] == Candidates(rows, keywords);
  }

  // ---------------------------------------------------------------------------
  // A whole poll

  /** Everything `main` has in hand before the row loop, or the failure that
      stops it first: the sorted keywords, the listing fetched for the query
      of the given Taipei date (a response or `result` that is not a dict
      fails at the `.get`), the ledger snapshot, and then the rows of the
      listing data (data that cannot be iterated fails only at the loop,
      after the state file has been read). */
  function Prepare(keywordLines: seq<string>, year: int, month: nat, day: nat,
                   fetchList: Query -> Result<Json>, state: StateFile): Result<(seq<string>, seq<Json>, set<string>)>
  {
    var keywords := SortByLengthDesc(KeywordLines(keywordLines));
    match fetchList(ListQuery(year, month, day))
    case Err(e) => Err(e)
    case Ok(resp) =>
      match ListingData(resp)
      case None => Err(MalformedResponse)
      case Some(data) =>
        match LoadLedger(state)
        case Err(e) => Err(e)
        case Ok(snapshot) =>
          match DataRows(data)
          case Err(e) => Err(e)
          case Ok(rows) => Ok((keywords, rows, snapshot))
  }

  /** A corrupt state file stops the poll before the listing data is
      iterated, whatever that data is. */
  lemma StateReadBeforeRows(keywordLines: seq<string>, year: int, month: nat, day: nat,
                            fetchList: Query -> Result<Json>, state: StateFile)
    requires fetchList(ListQuery(year, month, day)).Ok?
    requires ListingData(fetchList(ListQuery(year, month, day)).value).Some?
    requires LoadLedger(state).Err?
    ensures Prepare(keywordLines, year, month, day, fetchList, state) == Err(LoadLedger(state).error)
  {
  }

  /** For example, listing data `1` with an unparseable state file fails on
      the state file, not on the listing. */
  lemma NonIterableDataWithCorruptState(keywordLines: seq<string>)
    ensures var resp := JObject([("result", JObject([("data", JInt(1))]))]);
            Prepare(keywordLines, 2025, 1, 4, q => Ok(resp), Unparseable) == Err(CorruptState)
  {
  }

  /** One scheduled run of `main` (fetch_mops.py:118-235) with the keyword
      file's lines, the Taipei date, the two endpoints and the state file
      given as parameters. */
  method PollOnce(keywordLines: seq<string>, year: int, month: nat, day: nat,
                  fetchList: Query -> Result<Json>, state: StateFile,
                  fetchDetail: DetailFetch, fetchedAt: string)
    returns (outcome: Result<RunResult>)
    ensures var p := Prepare(keywordLines, year, month, day, fetchList, state);
            p.Err? ==> outcome == Err(p.error)
    ensures var p := Prepare(keywordLines, year, month, day, fetchList, state);
            p.Ok? ==>
              && (outcome.Ok? <==> FetchAll(Candidates(p.value.1, p.value.0), fetchDetail, fetchedAt).Ok?)
              && (outcome.Err? ==> outcome.error == FetchAll(Candidates(p.value.1, p.value.0), fetchDetail, fetchedAt).error)
              && (outcome.Ok? ==> RunOf(p.value.1, p.value.0, p.value.2, fetchDetail, fetchedAt, outcome.value))
  {
    var keywords := LoadKeywords(keywordLines);
    var query := ListQuery(year, month, day);
    var resp := fetchList(query);
    if resp.Err? {
      return Err(resp.error);
    }
    var data := ListingData(resp.value);
    if data.None? {
      return Err(MalformedResponse);
    }
    var snapshot := LoadLedger(state);
    if snapshot.Err? {
      return Err(snapshot.error);
    }
    var rows := DataRows(data.value);
    if rows.Err? {
      return Err(rows.error);
    }
    var fetched;
    outcome, fetched := Run(rows.value, keywords, snapshot.value, fetchDetail, fetchedAt);
  }

  /** Two consecutive runs over the same listing, the second reading the
      state file the first saved (the first's input when the first failed).
      Both runs call the same `fetchList` and `fetchDetail`, so the endpoints
      answer both runs alike; that is why the second run succeeds when the
      first did and fails the same way when the first failed. */
  method PollTwice(keywordLines: seq<string>, year: int, month: nat, day: nat,
                   fetchList: Query -> Result<Json>, state: StateFile,
                   fetchDetail: DetailFetch, firstAt: string, secondAt: string)
    returns (first: Result<RunResult>, second: Result<RunResult>)
    ensures first.Ok? ==> second.Ok?
    ensures first.Ok? ==> second.value.newMatched == [] && second.value.digest == None
    ensures first.Ok? ==> KeysOf(second.value.matched) == KeysOf(first.value.matched)
    ensures first.Ok? ==> |second.value.matched| == |first.value.matched|
    ensures first.Ok? ==> second.value.ledger == first.value.ledger && second.value.saved == first.value.saved
    ensures first.Err? ==> second.Err? && second.error == first.error
  {
    var p := Prepare(keywordLines, year, month, day, fetchList, state);
    first := PollOnce(keywordLines, year, month, day, fetchList, state, fetchDetail, firstAt);
    if first.Ok? {
      var next := Parsed(StateDoc(first.value.saved));
      LoadAfterSave(first.value.ledger, first.value.saved);
      PrepareSwapState(keywordLines, year, month, day, fetchList, state, next, first.value.ledger);
      second := PollOnce(keywordLines, year, month, day, fetchList, next, fetchDetail, secondAt);
      FetchAllAt(Candidates(p.value.1, p.value.0), fetchDetail, firstAt, secondAt);
      RerunFindsNothingNew(p.value.1, p.value.0, p.value.2, fetchDetail, firstAt, first.value,
                           fetchDetail, secondAt, second.value);
    } else {
      second := PollOnce(keywordLines, year, month, day, fetchList, state, fetchDetail, secondAt);
      if p.Ok? {
        FetchAllAt(Candidates(p.value.1, p.value.0), fetchDetail, firstAt, secondAt);
      }
    }
  }

  /** Once the listing has been read, a state file that loads to `ledger`
      gives the same keywords and rows, with `ledger` as the snapshot. */
  lemma PrepareSwapState(keywordLines: seq<string>, year: int, month: nat, day: nat,
                         fetchList: Query -> Result<Json>, state: StateFile, next: StateFile, ledger: set<string>)
    requires Prepare(keywordLines, year, month, day, fetchList, state).Ok?
    requires LoadLedger(next) == Ok(ledger)
    ensures var p := Prepare(keywordLines, year, month, day, fetchList, state).value;
            Prepare(keywordLines, year, month, day, fetchList, next) == Ok((p.0, p.1, ledger))
  {
  }

  /** Whether the detail lookups succeed does not depend on the fetch time. */
  lemma {:induction false} FetchAllAt(cs: seq<Candidate>, fetch: DetailFetch, at1: string, at2: string)
    ensures FetchAll(cs, fetch, at1).Ok? <==> FetchAll(cs, fetch, at2).Ok?
    ensures FetchAll(cs, fetch, at1).Err? ==> FetchAll(cs, fetch, at1) == FetchAll(cs, fetch, at2)
  {
    if cs != [] {
      FetchAllAt(cs[..|cs| - 1], fetch, at1, at2);
    }
  }
}

=== FILE: pyjson.dfy ===
/** JSON documents as the script sees them after `r.json()` / `json.load`:
    Python `None`, `bool`, `int`, `str`, `list` and `dict`. */
module PyJson {
  import opened Wrappers
  import opened Seqs
  import opened Text

  /** A dict is kept as its members in insertion order; its keys are
      distinct, as in any Python dict. */
  datatype Json =
    | JNull
    | JBool(b: bool)
    | JInt(i: int)
    | JStr(s: string)
    | JList(items: seq<Json>)
    | JObject(fields: seq<(string, Json)>)

  type Dict = seq<(string, Json)>

  /** `d.get(name)`: the value stored under `name`, if any. */
  function Get(d: Dict, name: string): (r: Option<Json>)
    ensures r.None? <==> forall i | 0 <= i < |d| :: d[i].0 != name
    ensures r.Some? ==> exists i | 0 <= i < |d| :: d[i] == (name, r.value)
  {
    if d == [] then None
    else if d[0].0 == name then Some(d[0].1)
    else
      var r := Get(d[1..], name);
      assert forall i | 1 <= i < |d| :: d[i] == d[1..][i - 1];
      r
  }

  /** Python truthiness: `None`, `False`, `0` and empty containers are false. */
  predicate Truthy(v: Json)
  {
    match v
    case JNull => false
    case JBool(b) => b
    case JInt(i) => i != 0
    case JStr(s) => s != []
    case JList(items) => items != []
    case JObject(fields) => fields != []
  }

  /** `str(v)`. */
  function PyStr(v: Json): string
    decreases v, 0
  {
    match v
    case JNull => "None"
    case JBool(b) => if b then "True" else "False"
    case JInt(i) => IntToDecimal(i)
    case JStr(s) => s
    case JList(items) =>
      "[" + Join(seq(|items|, k requires 0 <= k < |items| => PyRepr(items[k])), ", ") + "]"
    case JObject(fields) =>
      "{" + Join(seq(|fields|, k requires 0 <= k < |fields| =>
                   "'" + fields[k].0 + "': " + PyRepr(fields[k].1)), ", ") + "}"
  }

  /** `str` of a scalar: a string is itself, `None`, `True` and `False` are
      their names, and an integer is its decimal digits, after a minus sign
      when negative, which read back as the integer. */
  lemma PyStrScalars(v: Json)
    ensures v.JStr? ==> PyStr(v) == v.s
    ensures v.JNull? ==> PyStr(v) == "None"
    ensures v.JBool? ==> PyStr(v) == (if v.b then "True" else "False")
    ensures v.JInt? && v.i >= 0 ==> (forall k | 0 <= k < |PyStr(v)| :: '0' <= PyStr(v)[k] <= '9') && DecimalValue(PyStr(v)) == v.i
    ensures v.JInt? && v.i >= 0 ==> |PyStr(v)| >= 1 && (PyStr(v)[0] == '0' ==> v.i == 0)
    ensures v.JInt? && v.i < 0 ==> |PyStr(v)| >= 2 && PyStr(v)[1] != '0'
    ensures v.JInt? && v.i < 0 ==>
              PyStr(v)[0] == '-' && (forall k | 1 <= k < |PyStr(v)| :: '0' <= PyStr(v)[k] <= '9') && DecimalValue(PyStr(v)[1..]) == -v.i
  {
    if v.JInt? {
      var n := if v.i < 0 then -v.i else v.i;
      DecimalRoundTrip(n);
      if v.i < 0 {
        assert PyStr(v)[1..] == NatToDecimal(n);
      }
    }
  }

  /** `repr(v)` as used inside a container's `str`. */
  function PyRepr(v: Json): string
    decreases v, 1
  {
    if v.JStr? then "'" + v.s + "'" else PyStr(v)
  }
}

=== FILE: records.dfy ===
/** The matched-item record `main` builds for each announcement that hits a
    keyword (scripts/fetch_mops.py, the `item` dict). */
module Records {
  import opened PyJson

  datatype Item = Item(
    key: string,
    speechDate: string,
    speechTime: string,
    companyId: string,
    companyName: string,
    subject: string,
    matchedKeywords: seq<string>,
    detailParams: Dict,
    detail: Json,
    fetchedAt: string)
}

=== FILE: seqs.dfy ===
/** Sequence helpers: Python's `str.join`, `str.split` with a one-character
    separator, and the order-preserving subsequence relation. */
module Seqs {

  /** `sep.join(parts)` */
  function Join(parts: seq<string>, sep: string): string
  {
    if |parts| == 0 then ""
    else if |parts| == 1 then parts[0]
    else parts[0] + sep + Join(parts[1..], sep)
  }

  /** `s.split(sep)` for a one-character separator: never empty, and the
      pieces hold no separator. */
  function Split(s: string, sep: char): (parts: seq<string>)
    ensures |parts| >= 1
    ensures forall i | 0 <= i < |parts| :: sep !in parts[i]
    decreases |s|
  {
    if s == [] then [""]
    else if s[0] == sep then [""] + Split(s[1..], sep)
    else
      var rest := Split(s[1..], sep);
      [[s[0]] + rest[0]] + rest[1..]
  }

  /** A separator-free piece followed by the separator splits off as one part. */
  lemma {:induction false} SplitAfterPiece(a: string, sep: char, rest: string)
    requires sep !in a
    ensures Split(a + [sep] + rest, sep) == [a] + Split(rest, sep)
    decreases |a|
  {
    if a == [] {
      assert a + [sep] + rest == [sep] + rest;
      assert ([sep] + rest)[1..] == rest;
    } else {
      var s := a + [sep] + rest;
      assert s[0] == a[0];
      assert s[1..] == a[1..] + [sep] + rest;
      SplitAfterPiece(a[1..], sep, rest);
      assert [a[0]] + a[1..] == a;
    }
  }

  /** A separator-free string is one part. */
  lemma {:induction false} SplitWhole(a: string, sep: char)
    requires sep !in a
    ensures Split(a, sep) == [a]
    decreases |a|
  {
    if a != [] {
      SplitWhole(a[1..], sep);
      assert [a[0]] + a[1..] == a;
    }
  }

  /** Splitting undoes joining when no part holds the separator. */
  lemma {:induction false} SplitJoin(parts: seq<string>, sep: char)
    requires |parts| >= 1
    requires forall i | 0 <= i < |parts| :: sep !in parts[i]
    ensures Split(Join(parts, [sep]), sep) == parts
    decreases |parts|
  {
    if |parts| == 1 {
      SplitWhole(parts[0], sep);
    } else {
      SplitJoin(parts[1..], sep);
      SplitAfterPiece(parts[0], sep, Join(parts[1..], [sep]));
      assert [parts[0]] + parts[1..] == parts;
    }
  }

  /** The join holds a character only if a part or the separator does. */
  lemma {:induction false} JoinAvoids(parts: seq<string>, sep: string, c: char)
    requires c !in sep
    requires forall i | 0 <= i < |parts| :: c !in parts[i]
    ensures c !in Join(parts, sep)
    decreases |parts|
  {
    if |parts| > 1 {
      JoinAvoids(parts[1..], sep, c);
    }
  }

  /** Joins of equally long lists that differ in exactly one part differ. */
  lemma {:induction false} JoinSeparatesOne(a: seq<string>, b: seq<string>, sep: string, i: nat)
    requires |a| == |b| && i < |a| && a[i] != b[i]
    requires forall j | 0 <= j < |a| && j != i :: a[j] == b[j]
    ensures Join(a, sep) != Join(b, sep)
    decreases |a|
  {
    if |a| > 1 {
      var ja, jb := Join(a[1..], sep), Join(b[1..], sep);
      if i == 0 {
        assert a[1..] == b[1..];
        assert Join(a, sep) == a[0] + (sep + ja) && Join(b, sep) == b[0] + (sep + ja);
        PrefixDecides(a[0], b[0], sep + ja);
      } else {
        JoinSeparatesOne(a[1..], b[1..], sep, i - 1);
        var p := a[0] + sep;
        assert Join(a, sep) == p + ja && Join(b, sep) == p + jb;
        SuffixDecides(p, ja, jb);
      }
    }
  }

  lemma PrefixDecides(x: string, y: string, rest: string)
    requires x != y
    ensures x + rest != y + rest
  {
    if |x| == |y| {
      assert (x + rest)[..|x|] == x;
      assert (y + rest)[..|y|] == y;
    }
  }

  lemma SuffixDecides(p: string, x: string, y: string)
    requires x != y
    ensures p + x != p + y
  {
    if |x| == |y| {
      assert (p + x)[|p|..] == x;
      assert (p + y)[|p|..] == y;
    }
  }

  lemma AppendAssoc<T>(a: seq<T>, b: seq<T>, c: seq<T>)
    ensures a + (b + c) == (a + b) + c
  {
  }

  /** `a` is `b` with some elements left out, the rest kept in order. */
  predicate IsSubseq<T(==)>(a: seq<T>, b: seq<T>)
    decreases |b|
  {
    if a == [] then true
    else if b == [] then false
    else if a[|a| - 1] == b[|b| - 1] && IsSubseq(a[..|a| - 1], b[..|b| - 1]) then true
    else IsSubseq(a, b[..|b| - 1])
  }

  /** Extending both sides by the same element keeps the relation. */
  lemma SubseqSnoc<T>(a: seq<T>, b: seq<T>, x: T)
    requires IsSubseq(a, b)
    ensures IsSubseq(a + [x], b + [x])
  {
    assert (a + [x])[..|a + [x]| - 1] == a;
    assert (b + [x])[..|b + [x]| - 1] == b;
  }

  /** Extending only the longer side keeps the relation. */
  lemma SubseqSkip<T>(a: seq<T>, b: seq<T>, x: T)
    requires IsSubseq(a, b)
    ensures IsSubseq(a, b + [x])
  {
    assert (b + [x])[..|b + [x]| - 1] == b;
  }
}

=== FILE: text.dfy ===
/** Python string operations the script relies on: `str.isspace` (which is
    also what `\s` matches in a `str` regular expression), `str.strip`,
    `normalize_text`, the `in` substring test, `startswith` and `str(int)`. */
module Text {
  import opened Seqs

  /** The characters Python's `str.isspace` accepts: U+0009..U+000D,
      U+001C..U+001F, U+0020, U+0085, U+00A0, U+1680, U+2000..U+200A,
      U+2028, U+2029, U+202F, U+205F and U+3000. */
  predicate IsSpace(c: char)
  {
    || ('\t' <= c <= '\r')
    || ('\U{1C}' <= c <= '\U{1F}')
    || c == ' ' || c == '\U{85}' || c == '\U{A0}' || c == '\U{1680}'
    || ('\U{2000}' <= c <= '\U{200A}')
    || c == '\U{2028}' || c == '\U{2029}' || c == '\U{202F}' || c == '\U{205F}' || c == '\U{3000}'
  }

  // ---------------------------------------------------------------------------
  // str.strip()

  /** `s.lstrip()` */
  function TrimLeft(s: string): (r: string)
    ensures |r| <= |s|
    ensures r == [] || !IsSpace(r[0])
  {
    if s != [] && IsSpace(s[0]) then TrimLeft(s[1..]) else s
  }

  /** `s.rstrip()` */
  function TrimRight(s: string): (r: string)
    ensures |r| <= |s|
    ensures r == [] || !IsSpace(r[|r| - 1])
  {
    if s != [] && IsSpace(s[|s| - 1]) then TrimRight(s[..|s| - 1]) else s
  }

  /** `TrimLeft` drops a leading run of whitespace and nothing else. */
  lemma {:induction false} TrimLeftSlice(s: string)
    ensures TrimLeft(s) == s[|s| - |TrimLeft(s)|..]
    ensures forall i | 0 <= i < |s| - |TrimLeft(s)| :: IsSpace(s[i])
    decreases |s|
  {
    if s != [] && IsSpace(s[0]) {
      TrimLeftSlice(s[1..]);
      assert s[1..][|s| - 1 - |TrimLeft(s)|..] == s[|s| - |TrimLeft(s)|..];
      forall i | 1 <= i < |s| - |TrimLeft(s)| ensures IsSpace(s[i]) {
        assert s[i] == s[1..][i - 1];
      }
    }
  }

  /** `TrimRight` drops a trailing run of whitespace and nothing else. */
  lemma {:induction false} TrimRightSlice(s: string)
    ensures TrimRight(s) == s[..|TrimRight(s)|]
    ensures forall i | |TrimRight(s)| <= i < |s| :: IsSpace(s[i])
    decreases |s|
  {
    if s != [] && IsSpace(s[|s| - 1]) {
      TrimRightSlice(s[..|s| - 1]);
      assert s[..|s| - 1][..|TrimRight(s)|] == s[..|TrimRight(s)|];
      forall i | |TrimRight(s)| <= i < |s| - 1 ensures IsSpace(s[i]) {
        assert s[i] == s[..|s| - 1][i];
      }
    }
  }

  /** `s.strip()`: removes whitespace at both ends. */
  function Strip(s: string): string
  {
    TrimRight(TrimLeft(s))
  }

  /** Neither end of `s` is whitespace. */
  predicate NoEdgeSpace(s: string)
  {
    s == [] || (!IsSpace(s[0]) && !IsSpace(s[|s| - 1]))
  }

  /** `Strip(s)` is the slice of `s` between its leading and trailing
      whitespace runs, and it has whitespace at neither end. */
  lemma StripSlice(s: string)
    ensures exists i, j | 0 <= i <= j <= |s| :: Strip(s) == s[i..j]
    ensures NoEdgeSpace(Strip(s))
  {
    var t := TrimLeft(s);
    TrimLeftSlice(s);
    var i := |s| - |t|;
    var r := TrimRight(t);
    TrimRightSlice(t);
    assert r == s[i..i + |r|];
    if r != [] {
      assert r[0] == t[0];
    }
  }

  // ---------------------------------------------------------------------------
  // normalize_text

  /** `s.replace("\r\n", "\n")`, scanning left to right. */
  function ReplaceCrLf(s: string): string
  {
    if |s| >= 2 && s[0] == '\r' && s[1] == '\n' then "\n" + ReplaceCrLf(s[2..])
    else if s == [] then []
    else [s[0]] + ReplaceCrLf(s[1..])
  }

  /** `s.replace("\r", "\n")` */
  function ReplaceCr(s: string): string
  {
    if s == [] then []
    else [if s[0] == '\r' then '\n' else s[0]] + ReplaceCr(s[1..])
  }

  /** No two adjacent characters of `s` are both whitespace. */
  predicate NoDoubleSpace(s: string)
  {
    forall i | 0 <= i < |s| - 1 :: !(IsSpace(s[i]) && IsSpace(s[i + 1]))
  }

  /** The only whitespace character in `s` is the plain space. */
  predicate OnlyPlainSpaces(s: string)
  {
    forall i | 0 <= i < |s| :: IsSpace(s[i]) ==> s[i] == ' '
  }

  /** `re.sub(r"\s+", " ", s)`: every maximal whitespace run becomes one
      plain space, so the result has no adjacent whitespace, and it starts
      with whitespace exactly when `s` does. */
  function CollapseSpaces(s: string): (r: string)
    ensures NoDoubleSpace(r) && OnlyPlainSpaces(r)
    ensures r == [] <==> s == []
    ensures r != [] ==> (IsSpace(r[0]) <==> IsSpace(s[0]))
    decreases |s|
  {
    if s == [] then []
    else if IsSpace(s[0]) then " " + CollapseSpaces(TrimLeft(s[1..]))
    else [s[0]] + CollapseSpaces(s[1..])
  }

  /** `normalize_text`: line breaks unified, whitespace runs collapsed,
      ends trimmed. */
  function NormalizeText(s: string): string
  {
    Strip(CollapseSpaces(ReplaceCr(ReplaceCrLf(s))))
  }

  /** What `NormalizeText` returns: no whitespace at the ends, none doubled,
      and none other than the plain space. */
  predicate Normalized(s: string)
  {
    NoEdgeSpace(s) && NoDoubleSpace(s) && OnlyPlainSpaces(s)
  }

  lemma {:induction false} NormalizeTextIsNormalized(s: string)
    ensures Normalized(NormalizeText(s))
  {
    var c := CollapseSpaces(ReplaceCr(ReplaceCrLf(s)));
    StripSlice(c);
    var i, j :| 0 <= i <= j <= |c| && Strip(c) == c[i..j];
    var r := Strip(c);
    forall k | 0 <= k < |r| - 1
      ensures !(IsSpace(r[k]) && IsSpace(r[k + 1]))
    {
      assert r[k] == c[i + k] && r[k + 1] == c[i + k + 1];
    }
    forall k | 0 <= k < |r|
      ensures IsSpace(r[k]) ==> r[k] == ' '
    {
      assert r[k] == c[i + k];
    }
  }

  lemma {:induction false} ReplaceCrLfFixes(s: string)
    requires '\r' !in s
    ensures ReplaceCrLf(s) == s
    decreases |s|
  {
    if s != [] {
      assert s[1..] == s[1..];
      ReplaceCrLfFixes(s[1..]);
      assert [s[0]] + s[1..] == s;
    }
  }

  lemma {:induction false} ReplaceCrFixes(s: string)
    requires '\r' !in s
    ensures ReplaceCr(s) == s
    decreases |s|
  {
    if s != [] {
      ReplaceCrFixes(s[1..]);
      assert [s[0]] + s[1..] == s;
    }
  }

  lemma {:induction false} CollapseFixes(s: string)
    requires NoDoubleSpace(s) && OnlyPlainSpaces(s)
    ensures CollapseSpaces(s) == s
    decreases |s|
  {
    if s != [] {
      var t := s[1..];
      assert NoDoubleSpace(t) && OnlyPlainSpaces(t) by {
        forall k | 0 <= k < |t| - 1 ensures !(IsSpace(t[k]) && IsSpace(t[k + 1])) {
          assert t[k] == s[k + 1] && t[k + 1] == s[k + 2];
        }
        forall k | 0 <= k < |t| ensures IsSpace(t[k]) ==> t[k] == ' ' {
          assert t[k] == s[k + 1];
        }
      }
      CollapseFixes(t);
      if IsSpace(s[0]) {
        assert t == [] || !IsSpace(t[0]);
        assert TrimLeft(t) == t;
        assert s[0] == ' ';
      }
      assert [s[0]] + t == s;
    }
  }

  lemma StripFixes(s: string)
    requires NoEdgeSpace(s)
    ensures Strip(s) == s
  {
  }

  /** Normalising normalised text changes nothing. */
  lemma {:induction false} NormalizedIsFixpoint(s: string)
    requires Normalized(s)
    ensures NormalizeText(s) == s
  {
    assert '\r' !in s by {
      if '\r' in s {
        var k :| 0 <= k < |s| && s[k] == '\r';
        assert IsSpace(s[k]);
      }
    }
    ReplaceCrLfFixes(s);
    ReplaceCrFixes(s);
    CollapseFixes(s);
    StripFixes(s);
  }

  /** Text without whitespace is left as it is by `normalize_text`. */
  lemma NoSpacesNormalized(s: string)
    requires forall i | 0 <= i < |s| :: !IsSpace(s[i])
    ensures NormalizeText(s) == s
  {
    NormalizedIsFixpoint(s);
  }

  /** `normalize_text` is idempotent. */
  lemma NormalizeTextIdempotent(s: string)
    ensures NormalizeText(NormalizeText(s)) == NormalizeText(s)
  {
    NormalizeTextIsNormalized(s);
    NormalizedIsFixpoint(NormalizeText(s));
  }

  /** Normalised text holds no line break. */
  lemma NormalizedHasNoNewline(s: string)
    requires Normalized(s)
    ensures '\n' !in s
  {
    if '\n' in s {
      var k :| 0 <= k < |s| && s[k] == '\n';
      assert IsSpace(s[k]);
    }
  }

  // ---------------------------------------------------------------------------
  // What normalisation keeps: the non-whitespace characters, in order.

  function Visible(s: string): string
  {
    if s == [] then [] else (if IsSpace(s[0]) then [] else [s[0]]) + Visible(s[1..])
  }

  lemma {:induction false} VisibleAppend(a: string, b: string)
    ensures Visible(a + b) == Visible(a) + Visible(b)
    decreases |a|
  {
    if a != [] {
      assert (a + b)[0] == a[0];
      assert (a + b)[1..] == a[1..] + b;
      VisibleAppend(a[1..], b);
      assert Visible(a + b) == (if IsSpace(a[0]) then [] else [a[0]]) + (Visible(a[1..]) + Visible(b));
    } else {
      assert a + b == b;
    }
  }

  lemma {:induction false} VisibleOfSpaces(s: string)
    requires forall i | 0 <= i < |s| :: IsSpace(s[i])
    ensures Visible(s) == []
    decreases |s|
  {
    if s != [] {
      VisibleOfSpaces(s[1..]);
    }
  }

  lemma {:induction false} VisibleReplaceCrLf(s: string)
    ensures Visible(ReplaceCrLf(s)) == Visible(s)
    decreases |s|
  {
    if |s| >= 2 && s[0] == '\r' && s[1] == '\n' {
      VisibleReplaceCrLf(s[2..]);
      assert s[1..][1..] == s[2..];
    } else if s != [] {
      VisibleReplaceCrLf(s[1..]);
    }
  }

  lemma {:induction false} VisibleReplaceCr(s: string)
    ensures Visible(ReplaceCr(s)) == Visible(s)
    decreases |s|
  {
    if s != [] {
      VisibleReplaceCr(s[1..]);
    }
  }

  lemma {:induction false} VisibleTrimLeft(s: string)
    ensures Visible(TrimLeft(s)) == Visible(s)
  {
    var r := TrimLeft(s);
    TrimLeftSlice(s);
    var k := |s| - |r|;
    assert s == s[..k] + r;
    VisibleAppend(s[..k], r);
    VisibleOfSpaces(s[..k]);
  }

  lemma {:induction false} VisibleTrimRight(s: string)
    ensures Visible(TrimRight(s)) == Visible(s)
  {
    var r := TrimRight(s);
    TrimRightSlice(s);
    assert s == r + s[|r|..];
    VisibleAppend(r, s[|r|..]);
    VisibleOfSpaces(s[|r|..]);
  }

  lemma {:induction false} VisibleCollapse(s: string)
    ensures Visible(CollapseSpaces(s)) == Visible(s)
    decreases |s|
  {
    if s != [] {
      if IsSpace(s[0]) {
        VisibleCollapse(TrimLeft(s[1..]));
        VisibleTrimLeft(s[1..]);
      } else {
        VisibleCollapse(s[1..]);
      }
    }
  }

  /** `normalize_text` only touches whitespace: the other characters come
      out unchanged and in the same order. */
  lemma {:induction false} NormalizeTextKeepsVisible(s: string)
    ensures Visible(NormalizeText(s)) == Visible(s)
  {
    VisibleReplaceCrLf(s);
    VisibleReplaceCr(ReplaceCrLf(s));
    var c := CollapseSpaces(ReplaceCr(ReplaceCrLf(s)));
    VisibleCollapse(ReplaceCr(ReplaceCrLf(s)));
    VisibleTrimLeft(c);
    VisibleTrimRight(TrimLeft(c));
  }

  // ---------------------------------------------------------------------------
  // What normalisation is: the words of the text, each whitespace run between
  // them replaced by one space.

  /** The run of non-whitespace at the start of `s`. */
  function Word(s: string): (w: string)
    ensures |w| <= |s|
    ensures s != [] && !IsSpace(s[0]) ==> w != []
  {
    if s == [] || IsSpace(s[0]) then [] else [s[0]] + Word(s[1..])
  }

  /** `Word(s)` is the longest whitespace-free prefix of `s`. */
  lemma {:induction false} WordSlice(s: string)
    ensures Word(s) == s[..|Word(s)|]
    ensures forall i | 0 <= i < |Word(s)| :: !IsSpace(s[i])
    ensures |Word(s)| == |s| || IsSpace(s[|Word(s)|])
    decreases |s|
  {
    if s != [] && !IsSpace(s[0]) {
      WordSlice(s[1..]);
      forall i | 1 <= i < |Word(s)| ensures !IsSpace(s[i]) {
        assert s[i] == s[1..][i - 1];
      }
    }
  }

  /** `s.split()`: the maximal runs of non-whitespace, in order. */
  function Words(s: string): seq<string>
    decreases |s|
  {
    var t := TrimLeft(s);
    if t == [] then []
    else [Word(t)] + Words(t[|Word(t)|..])
  }

  /** Every word of `s.split()` is non-empty and holds no whitespace, so
      joining the words with single spaces leaves exactly one space between
      neighbouring words. */
  lemma {:induction false} WordsAreWords(s: string)
    ensures forall j | 0 <= j < |Words(s)| ::
              Words(s)[j] != [] && forall i | 0 <= i < |Words(s)[j]| :: !IsSpace(Words(s)[j][i])
    decreases |s|
  {
    var t := TrimLeft(s);
    if t != [] {
      var w := Word(t);
      var rest := t[|w|..];
      WordSlice(t);
      WordsAreWords(rest);
      assert Words(s) == [w] + Words(rest);
      forall j | 1 <= j < |Words(s)|
        ensures Words(s)[j] == Words(rest)[j - 1]
      {
      }
    }
  }

  lemma TrimLeftIdempotent(s: string)
    ensures TrimLeft(TrimLeft(s)) == TrimLeft(s)
  {
  }

  /** A collapsed string starts with the first word of the original. */
  lemma {:induction false} CollapseWord(s: string)
    ensures CollapseSpaces(s) == Word(s) + CollapseSpaces(s[|Word(s)|..])
    decreases |s|
  {
    if s != [] && !IsSpace(s[0]) {
      var u := s[1..];
      CollapseWord(u);
      var tail := CollapseSpaces(u[|Word(u)|..]);
      assert CollapseSpaces(s) == [s[0]] + CollapseSpaces(u);
      assert Word(s) == [s[0]] + Word(u);
      assert s[|Word(s)|..] == u[|Word(u)|..];
      AppendAssoc([s[0]], Word(u), tail);
    } else {
      assert Word(s) == [];
      assert s[0..] == s;
      assert [] + CollapseSpaces(s) == CollapseSpaces(s);
    }
  }

  /** Removing trailing whitespace from `a + b` only touches `b`, when `b`
      holds something other than whitespace. */
  lemma {:induction false} TrimRightAppend(a: string, b: string)
    requires TrimRight(b) != []
    ensures TrimRight(a + b) == a + TrimRight(b)
    decreases |b|
  {
    assert (a + b)[|a + b| - 1] == b[|b| - 1];
    if IsSpace(b[|b| - 1]) {
      TrimRightAppend(a, b[..|b| - 1]);
      assert (a + b)[..|a + b| - 1] == a + b[..|b| - 1];
    }
  }

  /** Leading whitespace does not change the stripped collapsed text. */
  lemma StripCollapseLeading(x: string)
    ensures Strip(CollapseSpaces(x)) == Strip(CollapseSpaces(TrimLeft(x)))
  {
    if x != [] && IsSpace(x[0]) {
      var y := CollapseSpaces(TrimLeft(x[1..]));
      assert CollapseSpaces(x) == " " + y;
      assert TrimLeft(" " + y) == TrimLeft(y) by {
        assert (" " + y)[1..] == y;
      }
    }
  }

  /** A whitespace run collapses to one space, or to nothing when it is empty. */
  lemma CollapseBlank(r: string)
    requires TrimLeft(r) == []
    ensures CollapseSpaces(r) == [] || CollapseSpaces(r) == " "
  {
    if r != [] {
      assert TrimLeft(r) == TrimLeft(r[1..]);
    }
  }

  /** A whitespace run followed by more text collapses to one space. */
  lemma CollapseRun(r: string)
    requires r != [] && IsSpace(r[0])
    ensures CollapseSpaces(r) == " " + CollapseSpaces(TrimLeft(r))
  {
    assert TrimLeft(r) == TrimLeft(r[1..]);
  }

  /** A word followed by at most one space strips to the word. */
  lemma StripWord(w: string, c: string)
    requires w != [] && !IsSpace(w[0]) && !IsSpace(w[|w| - 1])
    requires c == [] || c == " "
    ensures Strip(w + c) == w
  {
    assert TrimLeft(w + c) == w + c by {
      assert (w + c)[0] == w[0];
    }
    assert TrimRight(w) == w;
    if c == " " {
      assert (w + c)[|w + c| - 1] == ' ';
      assert (w + c)[..|w + c| - 1] == w;
    } else {
      assert w + c == w;
    }
  }

  /** A word, one space and a text starting with a non-space strip to the
      word, the space and the stripped text. */
  lemma StripWordThenText(w: string, t: string)
    requires w != [] && !IsSpace(w[0])
    requires t != [] && !IsSpace(t[0])
    ensures Strip(w + " " + t) == w + " " + Strip(t)
  {
    assert TrimLeft(w + " " + t) == w + " " + t by {
      assert (w + " " + t)[0] == w[0];
    }
    assert TrimLeft(t) == t;
    assert |TrimRight(t)| > 0 by {
      TrimRightSlice(t);
      assert !IsSpace(t[0]);
    }
    TrimRightAppend(w + " ", t);
  }

  lemma JoinCons(w: string, ws: seq<string>, sep: string)
    requires ws != []
    ensures Join([w] + ws, sep) == w + sep + Join(ws, sep)
  {
    assert ([w] + ws)[1..] == ws;
  }

  /** `re.sub(r"\s+", " ", x).strip()` is the words of `x` joined by one space. */
  lemma {:induction false} StripCollapseWords(x: string)
    ensures Strip(CollapseSpaces(x)) == Join(Words(x), " ")
    decreases |x|
  {
    var t := TrimLeft(x);
    StripCollapseLeading(x);
    if t != [] {
      var w := Word(t);
      var rest := t[|w|..];
      WordSlice(t);
      CollapseWord(t);
      assert Words(x) == [w] + Words(rest);
      var rt := TrimLeft(rest);
      TrimLeftIdempotent(rest);
      assert Words(rest) == Words(rt);
      assert !IsSpace(w[|w| - 1]);
      if rt == [] {
        CollapseBlank(rest);
        StripWord(w, CollapseSpaces(rest));
      } else {
        CollapseRun(rest);
        var crt := CollapseSpaces(rt);
        assert crt != [] && !IsSpace(crt[0]);
        assert w + CollapseSpaces(rest) == w + " " + crt;
        StripCollapseWords(rt);
        StripWordThenText(w, crt);
        JoinCons(w, Words(rt), " ");
      }
    }
  }

  /** Turning `\r` into `\n` commutes with removing leading whitespace. */
  lemma {:induction false} TrimLeftReplaceCr(u: string)
    ensures TrimLeft(ReplaceCr(u)) == ReplaceCr(TrimLeft(u))
    decreases |u|
  {
    if u != [] && IsSpace(u[0]) {
      TrimLeftReplaceCr(u[1..]);
    }
  }

  lemma {:induction false} CollapseReplaceCr(s: string)
    ensures CollapseSpaces(ReplaceCr(s)) == CollapseSpaces(s)
    decreases |s|
  {
    if s != [] {
      if IsSpace(s[0]) {
        TrimLeftReplaceCr(s[1..]);
        CollapseReplaceCr(TrimLeft(s[1..]));
      } else {
        CollapseReplaceCr(s[1..]);
      }
    }
  }

  lemma {:induction false} TrimLeftReplaceCrLf(u: string)
    ensures TrimLeft(ReplaceCrLf(u)) == ReplaceCrLf(TrimLeft(u))
    decreases |u|
  {
    if |u| >= 2 && u[0] == '\r' && u[1] == '\n' {
      TrimLeftReplaceCrLf(u[2..]);
      assert u[1..][1..] == u[2..];
      assert ("\n" + ReplaceCrLf(u[2..]))[1..] == ReplaceCrLf(u[2..]);
    } else if u != [] && IsSpace(u[0]) {
      TrimLeftReplaceCrLf(u[1..]);
    }
  }

  lemma {:induction false} CollapseReplaceCrLf(s: string)
    ensures CollapseSpaces(ReplaceCrLf(s)) == CollapseSpaces(s)
    decreases |s|
  {
    if |s| >= 2 && s[0] == '\r' && s[1] == '\n' {
      var rest := s[2..];
      TrimLeftReplaceCrLf(rest);
      CollapseReplaceCrLf(TrimLeft(rest));
      assert ("\n" + ReplaceCrLf(rest))[1..] == ReplaceCrLf(rest);
      assert s[1..][1..] == rest;
      assert TrimLeft(s[1..]) == TrimLeft(rest);
    } else if s != [] {
      if IsSpace(s[0]) {
        TrimLeftReplaceCrLf(s[1..]);
        CollapseReplaceCrLf(TrimLeft(s[1..]));
      } else {
        CollapseReplaceCrLf(s[1..]);
      }
    }
  }

  /** `normalize_text` is the text's words joined by single spaces: every
      whitespace run between two words, line breaks included, becomes one
      space, and whitespace at the ends disappears. */
  lemma {:induction false} NormalizeTextJoinsWords(s: string)
    ensures NormalizeText(s) == Join(Words(s), " ")
  {
    CollapseReplaceCrLf(s);
    CollapseReplaceCr(ReplaceCrLf(s));
    StripCollapseWords(s);
  }

  /** Texts that differ only in whitespace normalise to the same text. */
  lemma {:induction false} SameWordsSameNormalForm(s: string, t: string)
    requires Words(s) == Words(t)
    ensures NormalizeText(s) == NormalizeText(t)
  {
    NormalizeTextJoinsWords(s);
    NormalizeTextJoinsWords(t);
  }

  // ---------------------------------------------------------------------------
  // Substrings

  predicate IsPrefix(p: string, s: string)
  {
    |p| <= |s| && s[..|p|] == p
  }

  /** `k` occurs somewhere in `s`, the meaning of Python's `k in s`. */
  ghost predicate IsSubstring(k: string, s: string)
  {
    exists i | 0 <= i <= |s| :: IsPrefix(k, s[i..])
  }

  /** Python's `k in s`, decided by trying each start position. */
  function Occurs(k: string, s: string): (r: bool)
    ensures r <==> IsSubstring(k, s)
    decreases |s|
  {
    if IsPrefix(k, s) then
      assert IsPrefix(k, s[0..]);
      true
    else if s == [] then
      false
    else
      var r := Occurs(k, s[1..]);
      assert r ==> IsSubstring(k, s) by {
        if r {
          var i :| 0 <= i <= |s[1..]| && IsPrefix(k, s[1..][i..]);
          assert s[1..][i..] == s[i + 1..];
        }
      }
      assert IsSubstring(k, s) ==> r by {
        if IsSubstring(k, s) {
          var i :| 0 <= i <= |s| && IsPrefix(k, s[i..]);
          assert i != 0 by { assert s[0..] == s; }
          assert s[1..][i - 1..] == s[i..];
        }
      }
      r
  }

  /** Every character of a substring is a character of the text. */
  lemma SubstringChars(k: string, s: string)
    requires IsSubstring(k, s)
    ensures forall c | c in k :: c in s
  {
    var i :| 0 <= i <= |s| && IsPrefix(k, s[i..]);
    forall j | 0 <= j < |k| ensures k[j] in s {
      assert k[j] == s[i + j];
    }
  }

  // ---------------------------------------------------------------------------
  // str(int)

  function DigitChar(d: nat): (c: char)
    requires d < 10
    ensures '0' <= c <= '9'
  {
    "0123456789"[d]
  }

  function DigitValue(c: char): nat
  {
    if '0' <= c <= '9' then (c as int - '0' as int) as nat else 0
  }

  /** The decimal digits of `n`, without leading zeros. */
  function NatToDecimal(n: nat): (s: string)
    ensures |s| >= 1
    ensures forall i | 0 <= i < |s| :: '0' <= s[i] <= '9'
    ensures s[0] == '0' ==> n == 0
    decreases n
  {
    if n < 10 then [DigitChar(n)] else NatToDecimal(n / 10) + [DigitChar(n % 10)]
  }

  /** `str(i)` for a Python int. */
  function IntToDecimal(i: int): string
  {
    if i < 0 then "-" + NatToDecimal(-i) else NatToDecimal(i)
  }

  /** Reads a run of decimal digits back as a number. */
  function DecimalValue(s: string): nat
  {
    if s == [] then 0 else 10 * DecimalValue(s[..|s| - 1]) + DigitValue(s[|s| - 1])
  }

  lemma {:induction false} DecimalRoundTrip(n: nat)
    ensures DecimalValue(NatToDecimal(n)) == n
    decreases n
  {
    if n < 10 {
      assert DigitValue(DigitChar(n)) == n by {
        assert "0123456789"[n] as int == '0' as int + n;
      }
    } else {
      DecimalRoundTrip(n / 10);
      var s := NatToDecimal(n);
      assert s[..|s| - 1] == NatToDecimal(n / 10);
      assert DigitValue(DigitChar(n % 10)) == n % 10 by {
        assert "0123456789"[n % 10] as int == '0' as int + n % 10;
      }
    }
  }
}

=== FILE: wrappers.dfy ===
/** Failure-carrying values shared by every part of the model. */
module Wrappers {

  datatype Option<+T> = None | Some(value: T) {
    function GetOr(default: T): T {
      match this
      case Some(v) => v
      case None => default
    }
  }

  /** The exceptions `fetch_mops.py` lets escape, each of which ends the run. */
  datatype Failure =
    | TransportError      // `raise_for_status` or a connection error inside an HTTP call
    | MalformedResponse   // an AttributeError/TypeError while picking the listing rows apart
    | CorruptState        // the state file exists but is not a usable ledger

  datatype Result<+T> = Ok(value: T) | Err(error: Failure)
}
